=== FILE: README.md ===
# covid_county_prediction: sample indexing, artifact loading and ordinal labels

This project models, in Dafny, the sequential integer logic at the core of
the `covid_county_prediction` training pipeline, and proves properties of it.

- **CovidCountyDataset** (`Dataset.CovidCountyDataset`) is a torch dataset
  over the label days `[start_date, end_date)`. Its constructor:
  - builds one label entry per day: the feature window `[d - 20, d - 7]` and
    that day's `num_cases` rows after `dropna()`;
  - keeps `labels_lens`, the running totals of the rows per day;
  - loads six feature sources over `[start_date - 20, end_date - 7)` and
    normalizes each one.

  `__getitem__` turns a flat sample id into a (day, row) pair. It does this
  with `bisect_left` over `labels_lens`, a `+1` step on a boundary, and a
  negative Python index. It then extracts that county's tensors, classifies
  the label with `bisect_left` over the class boundaries, and memoises the
  bundle in `cache`. `cache` is saved to disk as one file per
  (start, end), and read back from it.
- **DataLoader** (`Loader.DataLoader`) makes sure a feature source's
  artifacts exist, through `_save_if_not_saved`. It then reads the tables of
  the days `start, start + interval, …` below `end` into a feature container.
- **get_ordinal_labels** (`OrdinalRunner.GetOrdinalLabels`) writes the
  thermometer encoding of each class label into a zero matrix.

Modules:
- `Wrappers`: Option, Result, Outcome.
- `Hyperparams`: `projection_days = 7`, `past_days_to_consider = 13`.
- `Bisect`: `bisect_left`.
- `Tables`: frames, rows, NaN, `dropna`.
- `SampleIndex`: prefix sums and id resolution.
- `LabelClassifier`.
- `Loader`.
- `Dataset`.
- `OrdinalRunner`.

Dates are integer day numbers. Python's `IndexError`, `AssertionError` and
`Exception` become error values of a `Result` or `Outcome`.

Points where the code's own behaviour is easy to misread:
- A label equal to a class boundary goes to the class below it:
  `bisect_left([0, 5, 20], 0)` is 0 (`LabelClassifier.ClassifyExamples`).
- The offset `df_idx = idx - labels_lens[k]` is never positive. As a Python
  negative index it addresses row `idx - labels_lens[k-1]` of day k.
- An empty day other than the first makes the id equal to its running total
  raise `IndexError` (`SampleIndex.EmptyDayFails`, `SampleIndex.EmptyDayRaises`).
  An empty first day is harmless (`SampleIndex.EmptyFirstDayExample`).
- `load_sg_mobility_incoming` is called by the dataset's constructor but is
  not defined in `DataLoader.py`. It is a given function in `Dataset.Externals`.

## Model

| member | source | states |
|---|---|---|
| Hyperparams.WindowEnd | covid_county_prediction/CovidCountyDataset.py:44 | the window of a label day ends strictly before that day (d - 7) |
| Bisect.BisectLeft | covid_county_prediction/CovidCountyDataset.py:118 | the result is at most len(a); every element before it is < x; the element at it, if any, is >= x |
| Bisect.BisectLeftSplits | covid_county_prediction/CovidCountyDataset.py:118 | on an ascending list, a[j] < x exactly for the indices j below bisect_left, so it counts the elements < x |
| Bisect.BisectLeftMonotone | covid_county_prediction/CovidCountyDataset.py:136 | bisect_left is monotone in the key |
| Tables.DropNa | covid_county_prediction/CovidCountyDataset.py:42 | no kept row has a NaN; a row is kept exactly when it is in the frame and has no NaN; never more rows |
| SampleIndex.PrefixSums | covid_county_prediction/CovidCountyDataset.py:55-60 | one running total per day |
| SampleIndex.PrefixSumsStep | covid_county_prediction/CovidCountyDataset.py:55-60 | labels_lens[k] = labels_lens[k-1] + rows of day k (0 before day 0) |
| SampleIndex.PrefixSumsCumulative | covid_county_prediction/CovidCountyDataset.py:55-60 | the running totals satisfy the per-day step relation for every day |
| SampleIndex.CumulativeAgree | covid_county_prediction/CovidCountyDataset.py:55-60 | two lists with the same per-day step over the same counts agree everywhere |
| SampleIndex.CumulativeIsPrefixSums | covid_county_prediction/CovidCountyDataset.py:55-60 | the step relation determines labels_lens: it is the prefix-sum list |
| SampleIndex.CumulativeAppend | covid_county_prediction/CovidCountyDataset.py:55-60 | appending a day with x rows and the last total + x keeps the step relation |
| SampleIndex.CumulativeMonotone | covid_county_prediction/CovidCountyDataset.py:55-60 | labels_lens is non-decreasing |
| SampleIndex.CumulativeStrict | covid_county_prediction/CovidCountyDataset.py:55-60 | with no empty day, labels_lens is strictly increasing |
| SampleIndex.CumulativeTotal | covid_county_prediction/CovidCountyDataset.py:101 | labels_lens[-1] is the total row count over all days |
| SampleIndex.CumulativeBounds | covid_county_prediction/CovidCountyDataset.py:136-140 | each day's range [labels_lens[k-1], labels_lens[k]) lies inside [0, labels_lens[-1]] |
| SampleIndex.Resolve | covid_county_prediction/CovidCountyDataset.py:136-140 | the definition of the day and offset lines 136-140 compute: a resolved day is a list index, and failure (IndexError) means labels_lens is empty or its last total is <= idx; its properties are proved in ResolvedLoc and ResolveSound |
| SampleIndex.PyIndex | covid_county_prediction/CovidCountyDataset.py:142 | a Python index into n rows is valid exactly in [-n, n) and addresses i or n + i |
| SampleIndex.Locate | covid_county_prediction/CovidCountyDataset.py:136-148 | a resolved (day, row) is a real row of a real day |
| SampleIndex.ResolvedLoc | covid_county_prediction/CovidCountyDataset.py:136-140 | for 0 <= idx < total with no empty day, the chosen day k has labels_lens[k-1] <= idx < labels_lens[k] and df_idx lies in [-(rows of k), -1] |
| SampleIndex.ResolveSound | covid_county_prediction/CovidCountyDataset.py:136-140 | any resolved day k is a list index with idx <= labels_lens[k]; the offset is idx - labels_lens[k], negative unless day k is empty |
| SampleIndex.LocateSound | covid_county_prediction/CovidCountyDataset.py:136-148 | a resolved (k, row) has row < rows of k and idx = labels_lens[k-1] + row |
| SampleIndex.DayUnique | covid_county_prediction/CovidCountyDataset.py:136-138 | the day ranges are disjoint, so at most one day holds an id |
| SampleIndex.LocateInjective | covid_county_prediction/CovidCountyDataset.py:136-148 | distinct ids never resolve to the same (day, row) |
| SampleIndex.LocateComplete | covid_county_prediction/CovidCountyDataset.py:136-148 | with no empty day, every (day, row) is reached, by id labels_lens[k-1] + row |
| SampleIndex.LocateDefinedIff | covid_county_prediction/CovidCountyDataset.py:136-148 | with no empty day, resolution succeeds exactly for 0 <= idx < labels_lens[-1] |
| SampleIndex.EmptyDayRaises | covid_county_prediction/CovidCountyDataset.py:136-142 | counts [2, 0, 3] have labels_lens [2, 2, 5]; id 2 lands on the empty day with offset 0 and the lookup fails |
| SampleIndex.EmptyDayFails | covid_county_prediction/CovidCountyDataset.py:136-142 | for any counts, an empty day k >= 1 makes the lookup of id labels_lens[k] fail |
| SampleIndex.EmptyFirstDayExample | covid_county_prediction/CovidCountyDataset.py:136-142 | counts [0, 3] have labels_lens [0, 3]; id 0 steps past the empty first day and reads row 0 of day 1 |
| SampleIndex.TwoDayExample | covid_county_prediction/CovidCountyDataset.py:136-148 | counts [2, 3] have labels_lens [2, 5]; ids 0..4 map to (0,0), (0,1), (1,0) … (1,2); id 5 fails |
| LabelClassifier.ClassifyLabel | covid_county_prediction/CovidCountyDataset.py:116-118 | succeeds exactly for an integral, non-NaN label; the class is in [0, len(boundaries)], the boundaries before it are < the label, the one at it is >= the label |
| LabelClassifier.ClassifyCountsBelow | covid_county_prediction/CovidCountyDataset.py:118 | on ascending boundaries, the class is the number of boundaries strictly below the label |
| LabelClassifier.ClassifyMonotone | covid_county_prediction/CovidCountyDataset.py:118 | the class is monotone in the label |
| LabelClassifier.ClassifyExamples | covid_county_prediction/CovidCountyDataset.py:116-118 | boundaries [0, 5, 20]: -1 and 0 are class 0, 20 is 2, 21 is 3; 2.5 and NaN are rejected |
| Loader.FixedSaverDates | covid_county_prediction/DataLoader.py:79-85 | saver() when neither date is given, saver(start, end) when both are, an error when exactly one is |
| Loader.FirstMissing | covid_county_prediction/DataLoader.py:87-91 | the earliest day of [lo, hi) whose file is absent, or none when all are present |
| Loader.FirstMissingExtend | covid_county_prediction/DataLoader.py:87-91 | scanning one more day keeps the earliest gap, or finds the new day as the gap |
| Loader.EnsureCovers | covid_county_prediction/DataLoader.py:86-91 | after the per-day branch every day of [lo, hi) is present; only that window's files are added; the saver runs at most once, and never when nothing is missing |
| Loader.DaySetStep | covid_county_prediction/DataLoader.py:86-91 | the files of days a .. d are those of a .. d - 1 plus day d's |
| Loader.EnsureOneDay | covid_county_prediction/DataLoader.py:65 | ensuring one day adds that day's file, with one saver(d, d + 1) call exactly when it was absent |
| Loader.SampledDays | covid_county_prediction/DataLoader.py:67-71 | the dates read are start + i * interval, all < end, ascending; none when end <= start; else enough of them to reach end (ceil((end - start) / interval)) |
| Loader.DataLoader.constructor | covid_county_prediction/DataLoader.py:12-13 | a loader over a given disk state, with no saver calls yet |
| Loader.DataLoader.Save | covid_county_prediction/DataLoader.py:80-90 | a saver call adds the artifacts it covers and is logged |
| Loader.DataLoader.SaveIfNotSaved | covid_county_prediction/DataLoader.py:75-91 | fixed path present: nothing happens; absent: saver() / saver(start, end) / error by the dates; per-day: the files after it and the saver calls are AfterEnsure and EnsureCalls (saver(first missing day, end)) |
| Loader.DataLoader.LoadTimeDepFeatures | covid_county_prediction/DataLoader.py:62-73 | ensures the window first, then returns a container of the given type, name, start and interval that holds the tables of SampledDays in order |
| Loader.DataLoader.LoadCensusData | covid_county_prediction/DataLoader.py:15-23 | saves the census file if absent, then returns it as constant features "open_census_data" |
| Loader.DataLoader.LoadSgPatternsMonthly | covid_county_prediction/DataLoader.py:25-30 | time-uniform container "monthly_patterns", one table per day |
| Loader.DataLoader.LoadSgSocialDistancing | covid_county_prediction/DataLoader.py:32-37 | time-uniform container "social_distancing", one table per day |
| Loader.DataLoader.LoadWeatherData | covid_county_prediction/DataLoader.py:39-44 | time-uniform container "weather_data", one table per day |
| Loader.DataLoader.LoadNumCases | covid_county_prediction/DataLoader.py:46-51 | time-uniform container "num_cases", one table per day |
| Loader.DataLoader.LoadCountywiseCumulativeCases | covid_county_prediction/DataLoader.py:53-60 | county-wise container "countywise_cumulative_cases", one table per day |
| Dataset.SourcesOnDiskCover | covid_county_prediction/CovidCountyDataset.py:70-78 | afterwards the census file and every training day's file of the four per-day sources are on disk, nothing else was added, at most five saver calls |
| Dataset.LabelSaverCallsShape | covid_county_prediction/CovidCountyDataset.py:40-42 | the label loop's saver calls: at most one per day, each saver(d, d + 1) for a day d of the range whose num_cases file was missing |
| Dataset.LabelSaverCallsStep | covid_county_prediction/CovidCountyDataset.py:40-42 | one more day adds its saver call exactly when its file was missing, unaffected by the days already loaded |
| Dataset.SourcesLoadsCompose | covid_county_prediction/CovidCountyDataset.py:70-78 | the five loads, each on the state the previous one left, compose to SourcesOnDisk and SourcesCalls |
| Dataset.LabelLoaderStep | covid_county_prediction/CovidCountyDataset.py:40-42 | one loop turn keeps the loader facts: files are the old ones plus the days loaded so far, and the saver log grows by LabelSaverCalls |
| Dataset.LabelsFor | covid_county_prediction/CovidCountyDataset.py:38-61 | one entry per day of [start_date, end_date), none when the range is empty; the date order and each entry's window are stated by LabelsForStep and LabelWindowsInsideFeatureRange |
| Dataset.LabelWindowsInsideFeatureRange | covid_county_prediction/CovidCountyDataset.py:44-68 | day i's window is [start + i - 20, start + i - 7] and lies inside the loaded range [start - 20, end - 7) |
| Dataset.LabelsForStep | covid_county_prediction/CovidCountyDataset.py:40-61 | one more loop turn appends exactly day d's entry, in date order |
| Dataset.LabelLoopStep | covid_county_prediction/CovidCountyDataset.py:40-61 | one loop turn extends labels by day d's entry and labels_lens by the running total, keeping both loop facts |
| Dataset.RowCountsAppend | covid_county_prediction/CovidCountyDataset.py:55-60 | the counts of the extended list extend the counts by the new day's rows |
| Dataset.NormArgs | covid_county_prediction/CovidCountyDataset.py:80-83 | (None, None) per source when means_stds is None; the given list when its length matches; an assertion failure otherwise |
| Dataset.NormalizeAll | covid_county_prediction/CovidCountyDataset.py:85-92 | one normalize result per source, each from that source and its own argument, in order |
| Dataset.RowSample | covid_county_prediction/CovidCountyDataset.py:141-148 | a bundle holds the extractor's tensors for the row's county and the day's window, and the class of the row's first cell; with the county found and a first cell, a bundle is produced exactly when that cell classifies; a missing county is MissingCountyData, a row without cells IndexError, a rejected label InvalidLabel |
| Dataset.ComputeSample | covid_county_prediction/CovidCountyDataset.py:136-148 | the definition of a cache miss: resolve the id to (day, row), IndexError when that fails, else that row's bundle; its properties are proved in ComputeSampleReadsRow, ComputeSampleFromRow and ComputeSampleIndexError |
| Dataset.ComputeSampleReadsRow | covid_county_prediction/CovidCountyDataset.py:136-148 | with no empty day, id labels_lens[k-1] + row is in range and yields row `row` of day k |
| Dataset.ComputeSampleFromRow | covid_county_prediction/CovidCountyDataset.py:136-148 | any id that resolves yields the row idx - labels_lens[k-1] of some day k |
| Dataset.ComputeSampleIndexError | covid_county_prediction/CovidCountyDataset.py:136-148 | with no empty day and at least one cell in every label row, a lookup raises IndexError exactly for ids outside [0, labels_lens[-1]) |
| Dataset.RangeSet | covid_county_prediction/CovidCountyDataset.py:121 | the ids 0 .. n-1, n of them |
| Dataset.RangeSetCovers | covid_county_prediction/CovidCountyDataset.py:121-124 | n keys that include 0 .. n-1 are exactly 0 .. n-1 |
| Dataset.CovidCountyDataset.Sources | covid_county_prediction/CovidCountyDataset.py:70-78 | six sources (its contract states the count); the order and the range [start - 20, end - 7) are its definition, the reference LoadSources is proved to return |
| Dataset.CovidCountyDataset.LoadSources | covid_county_prediction/CovidCountyDataset.py:63-78 | the loaded sources are exactly Sources(), in order; the loader's files and saver log become SourcesOnDisk and SourcesCalls of the old files over the training range |
| Dataset.CovidCountyDataset.constructor | covid_county_prediction/CovidCountyDataset.py:18-28 | fields set from the arguments; empty cache, not cached |
| Dataset.CovidCountyDataset.Sample | covid_county_prediction/CovidCountyDataset.py:136-148 | ComputeSample over the dataset's own labels, labels_lens, features, extractor and class boundaries: the bundle a cache miss on idx computes |
| Dataset.CovidCountyDataset.Len | covid_county_prediction/CovidCountyDataset.py:98-101 | len(cache) once cached; else defined exactly when there is a label day |
| Dataset.CovidCountyDataset.LenCountsRows | covid_county_prediction/CovidCountyDataset.py:98-101 | before caching, the length is the number of label rows over all days |
| Dataset.CovidCountyDataset.LoadCacheFromDisk | covid_county_prediction/CovidCountyDataset.py:104-114 | use_cache with the file: cache is the file and is_cached is set; use_cache without it: raises; without use_cache: nothing changes |
| Dataset.CovidCountyDataset.CachedHasNoSamples | covid_county_prediction/CovidCountyDataset.py:30-33 | a dataset read from its cache file has no labels, so no lookup outside the cache succeeds |
| Dataset.CovidCountyDataset.LoadDayLabels | covid_county_prediction/CovidCountyDataset.py:41-42 | day d's num_cases table without its NaN rows; day d's file is added, with a saver(d, d + 1) call exactly when it was absent |
| Dataset.CovidCountyDataset.AppendDay | covid_county_prediction/CovidCountyDataset.py:41-61 | one loop turn: labels gains day d's entry (window [d - 20, d - 7], rows without NaN), labels_lens gains the last total plus their count, and the loader changes as in LoadDayLabels |
| Dataset.CovidCountyDataset.LoadLabels | covid_county_prediction/CovidCountyDataset.py:35-61 | labels is one entry per day in date order and labels_lens its running row totals (the prefix sums of the row counts); the num_cases files of all label days are added, with the saver calls of LabelSaverCalls |
| Dataset.CovidCountyDataset.Build | covid_county_prediction/CovidCountyDataset.py:30-96 | a cache file returns early with len = len(cache), leaving features and the loader untouched; otherwise labels as above, the loader's files and saver log those of the label loop followed by the feature loads, and success exactly when means_stds fits and six sources are configured, with features and means_stds the normalize results of the sources |
| Dataset.CovidCountyDataset.GetItem | covid_county_prediction/CovidCountyDataset.py:132-153 | a hit returns the stored bundle and changes nothing; a miss computes Sample(idx), and on success stores it under idx only |
| Dataset.CovidCountyDataset.FillCache | covid_county_prediction/CovidCountyDataset.py:121-122 | ids 0 .. n-1 looked up in order: old entries kept, new ones computed samples below n; success leaves all of them cached; failure names the first id that was not cached before and whose sample failed, with every smaller id cached |
| Dataset.CovidCountyDataset.SaveCacheOnDisk | covid_county_prediction/CovidCountyDataset.py:120-130 | earlier entries are kept and new ones are computed samples; on success the keys are exactly 0 .. len-1 and the file of (start, end) holds the cache |
| OrdinalRunner.OrdinalRow | covid_county_prediction/OrdinalCovidRunner.py:28 | the definition of row i after `ans[i][:l] = 1` on zeros, with Python's slice clamping; its properties are proved in OrdinalRowThermometer, CountOnesOrdinalRow, OrdinalRoundTrip and OrdinalRowNonIncreasing |
| OrdinalRunner.CountOnes | covid_county_prediction/OrdinalCovidRunner.py:28 | the decode: the number of ones, at most the row length |
| OrdinalRunner.GetOrdinalLabels | covid_county_prediction/OrdinalCovidRunner.py:25-28 | a fresh len(labels) x num_classifiers matrix whose row i is the thermometer row of labels[i] |
| OrdinalRunner.OrdinalRowThermometer | covid_county_prediction/OrdinalCovidRunner.py:28 | for l >= 0, position j is 1 exactly when j < l |
| OrdinalRunner.CountOnesPrefix | covid_county_prediction/OrdinalCovidRunner.py:28 | a row of m ones then zeros has m ones |
| OrdinalRunner.CountOnesOrdinalRow | covid_county_prediction/OrdinalCovidRunner.py:28 | a row holds as many ones as the clamped slice covers: min(l, n) for l >= 0 |
| OrdinalRunner.OrdinalRoundTrip | covid_county_prediction/OrdinalCovidRunner.py:27-28 | for 0 <= l <= n, counting the ones recovers l |
| OrdinalRunner.OrdinalRowMonotone | covid_county_prediction/OrdinalCovidRunner.py:28 | for 0 <= l1 <= l2, row(l1) <= row(l2) pointwise (a negative l1 counts from the end and is excluded) |
| OrdinalRunner.OrdinalRowNonIncreasing | covid_county_prediction/OrdinalCovidRunner.py:28 | each row is ones then zeros |

## Left out

- Real I/O is not modelled: `pd.read_csv`, `os.path.exists`, `torch.load` / `torch.save`, `open`, tqdm and logging. The file store is a set of artifacts, the file contents are a fixed function, and the cache files are a map keyed by (start, end).
- The `DataSaver.save_*` routines and the config path generators are not part of this model. The model assumes that a per-day saver called with (a, end) writes exactly the days a .. end - 1, and that a fixed saver writes its one file.
- `normalize`, `FeaturesList.extract_torch_tensors` and `load_sg_mobility_incoming` are not part of this model. They are given functions (`Dataset.Externals`), and the floating-point normalization is not modelled. The files that `load_sg_mobility_incoming` would itself make sure of are not modelled, so `Dataset.SourcesOnDiskCover`'s "nothing else was added" covers only the five loader calls. The extractor is assumed to signal a missing county by returning nothing.
- Dataset.CovidCountyDataset.Build: `features[i].normalize` normalizes in place and returns (mean, std). The model has normalize return the normalized source together with its statistics.
- Dataset.CovidCountyDataset: the dataset inherits from DataLoader in the code. The model gives it a `loader` field instead.
- Dataset.CovidCountyDataset.GetItem: once the dataset was read from its cache file, labels is never set. A cache miss then raises AttributeError in the code; in the model it is an IndexError.
- Dataset.CovidCountyDataset.Build: the constructor is split into the field-setting Dafny constructor and `Build`, because a Dafny constructor cannot report an error.
- Dataset.CovidCountyDataset.SaveCacheOnDisk: the model proves the iff only one way. Success implies the keys are exactly 0 .. len-1; failure causes are not characterised beyond their error value.
- Bisect.BisectLeft: modelled by its defining property (the first index whose element is >= x), not by Python's binary search. The two agree on ascending lists; the class boundaries are assumed ascending, and `Dataset.Config` does not enforce it.
- LabelClassifier.ClassifyLabel: labels are reals or NaN; infinities (on which `ceil` raises) are not modelled.
- Tables.DropNa: the contract states which rows survive, not that their order is kept. The definition keeps order.
- Labels fed to `get_ordinal_labels` are integers and the matrix holds ints rather than torch floats. The `.cuda()` move is not modelled.
- The float and torch parts of `OrdinalCovidRunner.py` are not modelled: `get_class_prob`, the two ordinal losses, accuracy metrics, `argmax` and the runner class.
- Of the hyperparameter file only `projection_days = 7` and `past_days_to_consider = 13` are used. The singleton registration library is not part of this model.
- The code is single-threaded; no concurrency is modelled.

=== FILE: bisect.dfy ===
/**
 * Python's bisect.bisect_left, the leftmost insertion point of x into a.
 * The library routine is a binary search; on an ascending list its answer
 * is the first index whose element is >= x, which is what is defined here.
 */
module Bisect {

  predicate Ascending(a: seq<int>)
  {
    forall i, j :: 0 <= i < j < |a| ==> a[i] <= a[j]
  }

  function BisectLeft(a: seq<int>, x: int): (r: nat)
    ensures r <= |a|
    ensures forall j :: 0 <= j < r ==> a[j] < x
    ensures r < |a| ==> x <= a[r]
  {
    if |a| == 0 then 0
    else if x <= a[0] then 0
    else 1 + BisectLeft(a[1..], x)
  }

  /** On an ascending list every element from the insertion point on is >= x. */
  lemma BisectLeftSplits(a: seq<int>, x: int)
    requires Ascending(a)
    ensures forall j :: 0 <= j < |a| ==> (a[j] < x <==> j < BisectLeft(a, x))
  {
    var r := BisectLeft(a, x);
    forall j | 0 <= j < |a|
      ensures a[j] < x <==> j < r
    {
      if r <= j {
        assert a[r] <= a[j];
      }
    }
  }

  /** A larger key never has an earlier insertion point. */
  lemma BisectLeftMonotone(a: seq<int>, x: int, y: int)
    requires x <= y
    ensures BisectLeft(a, x) <= BisectLeft(a, y)
  {
  }
}

=== FILE: data_loader.dfy ===
/**
 * DataLoader: makes sure the per-day (or single) artifact files of a feature
 * source exist, calling the source's saver for whatever is missing, and reads
 * a date range of them into a feature container.
 *
 * The file system is the set of artifacts present on disk; what a file holds
 * once written is the function `contents`. The saver of a per-day source,
 * called with (a, end), writes exactly the days a .. end - 1; the saver of a
 * fixed artifact writes that one file.
 */
module Loader {
  import opened Wrappers
  import opened Tables

  datatype Kind =
    | Census
    | PatternsMonthly
    | SocialDistancing
    | Weather
    | NumCases
    | CountywiseCumulativeCases

  /** An artifact on disk: a source's single file, or its file for one day. */
  datatype FileId = FixedFile(kind: Kind) | DayFile(kind: Kind, day: int)

  /** The first argument of _save_if_not_saved: a fixed path, or a day -> path generator. */
  datatype Target = FixedPath(kind: Kind) | PerDayPath(kind: Kind)

  /** One call of a saver: saver() or saver(start, end). */
  datatype SaverCall = SaverCall(kind: Kind, dates: Option<(int, int)>)

  datatype LoadError =
    | DatesMismatch   // a fixed path with exactly one of start_date, end_date
    | DatesMissing    // a per-day path without both dates (comparing with None)

  datatype FeatureType = TimeUniform | CountyWise

  datatype Features =
    | ConstantFeatures(frame: Frame, name: string)
    | TimeDependentFeatures(frames: seq<Frame>, name: string, start: int, interval: int)
    | CountyWiseTimeDependentFeatures(frames: seq<Frame>, name: string, start: int, interval: int)

  function Container(ft: FeatureType, frames: seq<Frame>, name: string, start: int, interval: int): Features
  {
    match ft
    case TimeUniform => TimeDependentFeatures(frames, name, start, interval)
    case CountyWise => CountyWiseTimeDependentFeatures(frames, name, start, interval)
  }

  /** The files of days a .. b - 1 of a source. */
  function DaySet(kind: Kind, a: int, b: int): set<FileId>
  {
    set d | a <= d < b :: DayFile(kind, d)
  }

  /** What a saver call writes. */
  function Saved(target: Target, dates: Option<(int, int)>): set<FileId>
  {
    match target
    case FixedPath(k) => {FixedFile(k)}
    case PerDayPath(k) =>
      match dates
      case None => {}
      case Some((a, b)) => DaySet(k, a, b)
  }

  /**
   * The fixed-path branch's choice: saver() when both dates are absent,
   * saver(start, end) when both are given, an exception otherwise.
   */
  function FixedSaverDates(start: Option<int>, end: Option<int>): (r: Result<Option<(int, int)>, LoadError>)
    ensures r.Ok? <==> (start.None? <==> end.None?)
    ensures r.Ok? ==> (r.value.None? <==> start.None?)
    ensures r.Ok? && r.value.Some? ==> r.value.value == (start.value, end.value)
  {
    if start.None? && end.None? then Ok(None)
    else if start.Some? && end.Some? then Ok(Some((start.value, end.value)))
    else Err(DatesMismatch)
  }

  /** The earliest day in lo .. hi - 1 whose file is absent. */
  function FirstMissing(files: set<FileId>, kind: Kind, lo: int, hi: int): (r: Option<int>)
    ensures r.Some? ==> lo <= r.value < hi && DayFile(kind, r.value) !in files
    ensures r.Some? ==> forall d :: lo <= d < r.value ==> DayFile(kind, d) in files
    ensures r.None? ==> forall d :: lo <= d < hi ==> DayFile(kind, d) in files
    decreases hi - lo
  {
    if hi <= lo then None
    else if DayFile(kind, lo) !in files then Some(lo)
    else FirstMissing(files, kind, lo + 1, hi)
  }

  /** Scanning one more day: the earliest gap stays, or the new day is the gap. */
  lemma {:induction false} FirstMissingExtend(files: set<FileId>, kind: Kind, lo: int, hi: int)
    requires lo <= hi
    ensures FirstMissing(files, kind, lo, hi + 1) ==
      if FirstMissing(files, kind, lo, hi).Some? then FirstMissing(files, kind, lo, hi)
      else if DayFile(kind, hi) in files then None
      else Some(hi)
    decreases hi - lo
  {
    if lo < hi && DayFile(kind, lo) in files {
      FirstMissingExtend(files, kind, lo + 1, hi);
    }
  }

  /** The files present after the per-day branch of _save_if_not_saved on [lo, hi). */
  function AfterEnsure(files: set<FileId>, kind: Kind, lo: int, hi: int): set<FileId>
  {
    match FirstMissing(files, kind, lo, hi)
    case None => files
    case Some(m) => files + DaySet(kind, m, hi)
  }

  /** The saver calls the per-day branch makes on [lo, hi). */
  function EnsureCalls(files: set<FileId>, kind: Kind, lo: int, hi: int): seq<SaverCall>
  {
    match FirstMissing(files, kind, lo, hi)
    case None => []
    case Some(m) => [SaverCall(kind, Some((m, hi)))]
  }

  /**
   * After the per-day branch every day of [lo, hi) is present, only files of
   * that source and window were added, the saver ran at most once, and not at
   * all when nothing was missing.
   */
  lemma EnsureCovers(files: set<FileId>, kind: Kind, lo: int, hi: int)
    ensures forall d :: lo <= d < hi ==> DayFile(kind, d) in AfterEnsure(files, kind, lo, hi)
    ensures files <= AfterEnsure(files, kind, lo, hi) <= files + DaySet(kind, lo, hi)
    ensures |EnsureCalls(files, kind, lo, hi)| <= 1
    ensures EnsureCalls(files, kind, lo, hi) == [] <==> AfterEnsure(files, kind, lo, hi) == files
  {
    match FirstMissing(files, kind, lo, hi)
    case None =>
    case Some(m) =>
      assert DayFile(kind, m) in DaySet(kind, m, hi);
      assert DayFile(kind, m) !in files;
  }

  /** The files of days a .. d extend those of a .. d - 1 by day d's file. */
  lemma DaySetStep(kind: Kind, a: int, d: int)
    requires a <= d
    ensures DaySet(kind, a, d + 1) == DaySet(kind, a, d) + {DayFile(kind, d)}
  {
  }

  /** Ensuring the single day d adds that day's file, with one saver(d, d + 1) call exactly when it was absent. */
  lemma EnsureOneDay(files: set<FileId>, kind: Kind, d: int)
    ensures AfterEnsure(files, kind, d, d + 1) == files + {DayFile(kind, d)}
    ensures EnsureCalls(files, kind, d, d + 1)
            == if DayFile(kind, d) in files then [] else [SaverCall(kind, Some((d, d + 1)))]
  {
    assert FirstMissing(files, kind, d + 1, d + 1) == None;
    assert DaySet(kind, d, d + 1) == {DayFile(kind, d)};
  }

  /** The dates start, start + interval, ... that are < end, in ascending order. */
  function SampledDays(start: int, end: int, interval: int): (days: seq<int>)
    requires interval > 0
    ensures forall i :: 0 <= i < |days| ==> days[i] == start + i * interval && days[i] < end
    ensures end <= start ==> days == []
    ensures start < end ==> |days| > 0 && end <= start + |days| * interval
    decreases end - start
  {
    if end <= start then []
    else [start] + SampledDays(start + interval, end, interval)
  }

  class DataLoader {
    /** What each artifact holds once it has been written. */
    const contents: FileId -> Frame
    /** The artifacts present on disk. */
    var onDisk: set<FileId>
    /** Every saver call made so far, in order. */
    ghost var saverCalls: seq<SaverCall>

    constructor (contents: FileId -> Frame, onDisk: set<FileId>)
      ensures this.contents == contents && this.onDisk == onDisk && saverCalls == []
    {
      this.contents := contents;
      this.onDisk := onDisk;
      saverCalls := [];
    }

    /** The frames read for the given days of a per-day source. */
    function FramesOf(kind: Kind, days: seq<int>): seq<Frame>
    {
      seq(|days|, i requires 0 <= i < |days| => contents(DayFile(kind, days[i])))
    }

    /** The DataSaver routine for the target's source: writes the artifacts it covers. */
    method Save(target: Target, dates: Option<(int, int)>)
      modifies this
      ensures onDisk == old(onDisk) + Saved(target, dates)
      ensures saverCalls == old(saverCalls) + [SaverCall(target.kind, dates)]
    {
      onDisk := onDisk + Saved(target, dates);
      saverCalls := saverCalls + [SaverCall(target.kind, dates)];
    }

    /** _save_if_not_saved */
    method SaveIfNotSaved(target: Target, start: Option<int>, end: Option<int>) returns (o: Outcome<LoadError>)
      modifies this
      ensures target.FixedPath? && FixedFile(target.kind) in old(onDisk) ==>
        o.Pass? && onDisk == old(onDisk) && saverCalls == old(saverCalls)
      ensures target.FixedPath? && FixedFile(target.kind) !in old(onDisk) ==>
        match FixedSaverDates(start, end)
        case Err(e) => o == Fail(e) && onDisk == old(onDisk) && saverCalls == old(saverCalls)
        case Ok(dates) =>
          && o.Pass?
          && onDisk == old(onDisk) + {FixedFile(target.kind)}
          && saverCalls == old(saverCalls) + [SaverCall(target.kind, dates)]
      ensures target.PerDayPath? && (start.None? || end.None?) ==>
        o == Fail(DatesMissing) && onDisk == old(onDisk) && saverCalls == old(saverCalls)
      ensures target.PerDayPath? && start.Some? && end.Some? ==>
        && o.Pass?
        && onDisk == AfterEnsure(old(onDisk), target.kind, start.value, end.value)
        && saverCalls == old(saverCalls) + EnsureCalls(old(onDisk), target.kind, start.value, end.value)
    {
      match target
      case FixedPath(k) =>
        if FixedFile(k) !in onDisk {
          var dates := FixedSaverDates(start, end);
          if dates.Err? {
            return Fail(dates.error);
          }
          Save(target, dates.value);
        }
        return Pass;
      case PerDayPath(k) =>
        if start.None? || end.None? {
          return Fail(DatesMissing);
        }
        var s, e := start.value, end.value;
        var cur := s;
        while cur < e
          invariant s <= cur <= if s < e then e else s
          invariant FirstMissing(old(onDisk), k, s, cur).None? ==>
            onDisk == old(onDisk) && saverCalls == old(saverCalls)
          invariant FirstMissing(old(onDisk), k, s, cur).Some? ==>
            && onDisk == old(onDisk) + DaySet(k, FirstMissing(old(onDisk), k, s, cur).value, e)
            && saverCalls == old(saverCalls) + [SaverCall(k, Some((FirstMissing(old(onDisk), k, s, cur).value, e)))]
        {
          FirstMissingExtend(old(onDisk), k, s, cur);
          if FirstMissing(old(onDisk), k, s, cur).Some? {
            assert DayFile(k, cur) in DaySet(k, FirstMissing(old(onDisk), k, s, cur).value, e);
          }
          if DayFile(k, cur) !in onDisk {
            Save(target, Some((cur, e)));
          }
          cur := cur + 1;
        }
        assert FirstMissing(old(onDisk), k, s, e) == FirstMissing(old(onDisk), k, s, cur);
        return Pass;
    }

    /** _load_time_dep_features: ensure the whole window, then read every sampled day. */
    method LoadTimeDepFeatures(kind: Kind, start: int, end: int, ft: FeatureType, name: string, interval: int)
      returns (r: Features)
      requires interval > 0
      modifies this
      ensures onDisk == AfterEnsure(old(onDisk), kind, start, end)
      ensures saverCalls == old(saverCalls) + EnsureCalls(old(onDisk), kind, start, end)
      ensures r == Container(ft, FramesOf(kind, SampledDays(start, end, interval)), name, start, interval)
    {
      var o := SaveIfNotSaved(PerDayPath(kind), Some(start), Some(end));
      EnsureCovers(old(onDisk), kind, start, end);
      var dfs: seq<Frame> := [];
      var cur := start;
      ghost var read: seq<int> := [];
      while cur < end
        invariant start <= cur
        invariant read + SampledDays(cur, end, interval) == SampledDays(start, end, interval)
        invariant dfs == FramesOf(kind, read)
      {
        // the ensure step has written every day of [start, end), so the read finds its file
        assert DayFile(kind, cur) in onDisk;
        dfs := dfs + [contents(DayFile(kind, cur))];
        assert SampledDays(cur, end, interval) == [cur] + SampledDays(cur + interval, end, interval);
        read := read + [cur];
        cur := cur + interval;
      }
      return Container(ft, dfs, name, start, interval);
    }

    /** load_census_data: the single census file, ensured then read. */
    method LoadCensusData() returns (r: Features)
      modifies this
      ensures r == ConstantFeatures(contents(FixedFile(Census)), "open_census_data")
      ensures onDisk == old(onDisk) + {FixedFile(Census)}
      ensures saverCalls == old(saverCalls) + if FixedFile(Census) in old(onDisk) then [] else [SaverCall(Census, None)]
    {
      var o := SaveIfNotSaved(FixedPath(Census), None, None);
      assert FixedFile(Census) in onDisk;
      return ConstantFeatures(contents(FixedFile(Census)), "open_census_data");
    }

    method LoadSgPatternsMonthly(start: int, end: int) returns (r: Features)
      modifies this
      ensures onDisk == AfterEnsure(old(onDisk), PatternsMonthly, start, end)
      ensures saverCalls == old(saverCalls) + EnsureCalls(old(onDisk), PatternsMonthly, start, end)
      ensures r == TimeDependentFeatures(FramesOf(PatternsMonthly, SampledDays(start, end, 1)), "monthly_patterns", start, 1)
    {
      r := LoadTimeDepFeatures(PatternsMonthly, start, end, TimeUniform, "monthly_patterns", 1);
    }

    method LoadSgSocialDistancing(start: int, end: int) returns (r: Features)
      modifies this
      ensures onDisk == AfterEnsure(old(onDisk), SocialDistancing, start, end)
      ensures saverCalls == old(saverCalls) + EnsureCalls(old(onDisk), SocialDistancing, start, end)
      ensures r == TimeDependentFeatures(FramesOf(SocialDistancing, SampledDays(start, end, 1)), "social_distancing", start, 1)
    {
      r := LoadTimeDepFeatures(SocialDistancing, start, end, TimeUniform, "social_distancing", 1);
    }

    method LoadWeatherData(start: int, end: int) returns (r: Features)
      modifies this
      ensures onDisk == AfterEnsure(old(onDisk), Weather, start, end)
      ensures saverCalls == old(saverCalls) + EnsureCalls(old(onDisk), Weather, start, end)
      ensures r == TimeDependentFeatures(FramesOf(Weather, SampledDays(start, end, 1)), "weather_data", start, 1)
    {
      r := LoadTimeDepFeatures(Weather, start, end, TimeUniform, "weather_data", 1);
    }

    method LoadNumCases(start: int, end: int) returns (r: Features)
      modifies this
      ensures onDisk == AfterEnsure(old(onDisk), NumCases, start, end)
      ensures saverCalls == old(saverCalls) + EnsureCalls(old(onDisk), NumCases, start, end)
      ensures r == TimeDependentFeatures(FramesOf(NumCases, SampledDays(start, end, 1)), "num_cases", start, 1)
    {
      r := LoadTimeDepFeatures(NumCases, start, end, TimeUniform, "num_cases", 1);
    }

    method LoadCountywiseCumulativeCases(start: int, end: int) returns (r: Features)
      modifies this
      ensures onDisk == AfterEnsure(old(onDisk), CountywiseCumulativeCases, start, end)
      ensures saverCalls == old(saverCalls) + EnsureCalls(old(onDisk), CountywiseCumulativeCases, start, end)
      ensures r == CountyWiseTimeDependentFeatures(
        FramesOf(CountywiseCumulativeCases, SampledDays(start, end, 1)), "countywise_cumulative_cases", start, 1)
    {
      r := LoadTimeDepFeatures(CountywiseCumulativeCases, start, end, CountyWise, "countywise_cumulative_cases", 1);
    }
  }
}

=== FILE: dataset.dfy ===
/**
 * CovidCountyDataset: one sample per (day, surviving label row) of the days
 * [start_date, end_date); the flat sample id is resolved through the
 * prefix-sum index, the sample's tensors are extracted for that county and
 * the day's feature window, its label is classified, and the bundle is
 * memoised in a cache that can be written to or read from disk as one blob.
 */
module Dataset {
  import opened Wrappers
  import opened Tables
  import opened Hyperparams
  import opened SampleIndex
  import opened LabelClassifier
  import opened Loader

  type Tensors = map<string, seq<real>>

  /** One sample: the tensors per feature source and the label's class. */
  datatype Bundle = Bundle(tensors: Tensors, labelClass: nat)

  /** One day's labels: its feature window and its label rows after dropna(). */
  datatype LabelEntry = LabelEntry(windowStart: int, windowEnd: int, rows: Frame)

  /** The (mean, std) handed to normalize; None asks it to compute them. */
  datatype NormArg = NormArg(mean: Option<seq<real>>, std: Option<seq<real>>)

  /** The statistics normalize returns. */
  datatype Stats = Stats(mean: seq<real>, std: seq<real>)

  datatype DatasetError =
    | MissingCacheFile     // use_cache is set but no cache file exists
    | IndexError           // a list or frame lookup out of range
    | InvalidLabel         // the label is not integral, or NaN
    | MissingCountyData    // the county is absent from a feature source
    | IncompleteCache      // the cache does not hold exactly one bundle per id
    | MeansStdsMismatch    // means_stds does not have one pair per source
    | FeatureCountMismatch // the number of sources differs from the configured one

  /**
   * Code outside this model, taken as given functions: normalize (returns the
   * normalized source and its statistics), FeaturesList.extract_torch_tensors
   * (None when the county is missing) and load_sg_mobility_incoming.
   */
  datatype Externals = Externals(
    normalize: (Features, NormArg) -> (Features, Stats),
    extract: (seq<Features>, string, int, int) -> Option<Tensors>,
    loadSgMobilityIncoming: (int, int) -> Features)

  /** The configuration constants the dataset consumes. */
  datatype Config = Config(labelsClassBoundaries: seq<int>, numFeatures: nat)

  /** The cache files, one per (start_date, end_date). */
  type CacheFiles = map<(int, int), map<int, Bundle>>

  /** The feature sources the constructor loads, in order. */
  const NumSources: nat := 6

  /** First day of feature data: the window start of the first label day. */
  function TrainingDataStart(start: int): int
  {
    start - ProjectionDays - PastDaysToConsider
  }

  /** End (exclusive) of feature data: one past the window end of the last label day. */
  function TrainingDataEnd(end: int): int
  {
    end - ProjectionDays
  }

  /** The per-day sources whose loads in __init__ go through the loader over the training range. */
  const FeatureDaySources: set<Kind> := {PatternsMonthly, SocialDistancing, NumCases, CountywiseCumulativeCases}

  /**
   * The files on disk after __init__'s loader calls over feature days lo .. hi - 1:
   * census, then patterns, social distancing, num_cases and cumulative cases.
   */
  function SourcesOnDisk(files: set<FileId>, lo: int, hi: int): set<FileId>
  {
    var f1 := AfterEnsure(files + {FixedFile(Census)}, PatternsMonthly, lo, hi);
    var f2 := AfterEnsure(f1, SocialDistancing, lo, hi);
    var f3 := AfterEnsure(f2, NumCases, lo, hi);
    AfterEnsure(f3, CountywiseCumulativeCases, lo, hi)
  }

  /** The saver calls those loader calls make, in order. */
  function SourcesCalls(files: set<FileId>, lo: int, hi: int): seq<SaverCall>
  {
    var c0 := if FixedFile(Census) in files then [] else [SaverCall(Census, None)];
    var f0 := files + {FixedFile(Census)};
    var f1 := AfterEnsure(f0, PatternsMonthly, lo, hi);
    var f2 := AfterEnsure(f1, SocialDistancing, lo, hi);
    var f3 := AfterEnsure(f2, NumCases, lo, hi);
    c0 + EnsureCalls(f0, PatternsMonthly, lo, hi) + EnsureCalls(f1, SocialDistancing, lo, hi)
       + EnsureCalls(f2, NumCases, lo, hi) + EnsureCalls(f3, CountywiseCumulativeCases, lo, hi)
  }

  /**
   * After __init__'s feature loads, the census file and every day's file of the
   * four per-day sources over lo .. hi - 1 are on disk, nothing else was added,
   * and each of the five loads ran its saver at most once.
   */
  lemma SourcesOnDiskCover(files: set<FileId>, lo: int, hi: int)
    ensures FixedFile(Census) in SourcesOnDisk(files, lo, hi)
    ensures forall k, d :: k in FeatureDaySources && lo <= d < hi ==> DayFile(k, d) in SourcesOnDisk(files, lo, hi)
    ensures files <= SourcesOnDisk(files, lo, hi)
    ensures SourcesOnDisk(files, lo, hi) <= files + {FixedFile(Census)} + DaySet(PatternsMonthly, lo, hi)
              + DaySet(SocialDistancing, lo, hi) + DaySet(NumCases, lo, hi) + DaySet(CountywiseCumulativeCases, lo, hi)
    ensures |SourcesCalls(files, lo, hi)| <= 5
  {
    var f0 := files + {FixedFile(Census)};
    var f1 := AfterEnsure(f0, PatternsMonthly, lo, hi);
    var f2 := AfterEnsure(f1, SocialDistancing, lo, hi);
    var f3 := AfterEnsure(f2, NumCases, lo, hi);
    EnsureCovers(f0, PatternsMonthly, lo, hi);
    EnsureCovers(f1, SocialDistancing, lo, hi);
    EnsureCovers(f2, NumCases, lo, hi);
    EnsureCovers(f3, CountywiseCumulativeCases, lo, hi);
  }

  /** The five loads, each applied to the state the previous one left, compose to SourcesOnDisk and SourcesCalls. */
  lemma SourcesLoadsCompose(lo: int, hi: int, files0: set<FileId>, calls0: seq<SaverCall>,
                            files1: set<FileId>, calls1: seq<SaverCall>, files2: set<FileId>, calls2: seq<SaverCall>,
                            files3: set<FileId>, calls3: seq<SaverCall>, files4: set<FileId>, calls4: seq<SaverCall>,
                            files5: set<FileId>, calls5: seq<SaverCall>)
    requires files1 == files0 + {FixedFile(Census)}
    requires calls1 == calls0 + if FixedFile(Census) in files0 then [] else [SaverCall(Census, None)]
    requires files2 == AfterEnsure(files1, PatternsMonthly, lo, hi)
    requires calls2 == calls1 + EnsureCalls(files1, PatternsMonthly, lo, hi)
    requires files3 == AfterEnsure(files2, SocialDistancing, lo, hi)
    requires calls3 == calls2 + EnsureCalls(files2, SocialDistancing, lo, hi)
    requires files4 == AfterEnsure(files3, NumCases, lo, hi)
    requires calls4 == calls3 + EnsureCalls(files3, NumCases, lo, hi)
    requires files5 == AfterEnsure(files4, CountywiseCumulativeCases, lo, hi)
    requires calls5 == calls4 + EnsureCalls(files4, CountywiseCumulativeCases, lo, hi)
    ensures files5 == SourcesOnDisk(files0, lo, hi)
    ensures calls5 == calls0 + SourcesCalls(files0, lo, hi)
  {
    var c0 := if FixedFile(Census) in files0 then [] else [SaverCall(Census, None)];
    var c2 := c0 + EnsureCalls(files1, PatternsMonthly, lo, hi);
    var c3 := c2 + EnsureCalls(files2, SocialDistancing, lo, hi);
    var c4 := c3 + EnsureCalls(files3, NumCases, lo, hi);
    assert calls2 == calls0 + c2;
    assert calls3 == calls0 + c3;
    assert calls4 == calls0 + c4;
    assert calls5 == calls0 + (c4 + EnsureCalls(files4, CountywiseCumulativeCases, lo, hi));
  }

  /**
   * The saver calls of the label loop over days a .. b - 1 from the files
   * `files`: saver(d, d + 1) for each day whose num_cases file was missing, in
   * day order.
   */
  function LabelSaverCalls(files: set<FileId>, a: int, b: int): seq<SaverCall>
    decreases b - a
  {
    if b <= a then [] else
      LabelSaverCalls(files, a, b - 1) +
      if DayFile(NumCases, b - 1) in files then [] else [SaverCall(NumCases, Some((b - 1, b)))]
  }

  /**
   * The label loop calls the saver at most once per day, and only as
   * saver(d, d + 1) for a day d of the range whose num_cases file was missing.
   */
  lemma {:induction false} LabelSaverCallsShape(files: set<FileId>, a: int, b: int)
    decreases b - a
    ensures |LabelSaverCalls(files, a, b)| <= if a < b then b - a else 0
    ensures forall i :: 0 <= i < |LabelSaverCalls(files, a, b)| ==>
              exists d :: a <= d < b && DayFile(NumCases, d) !in files
                          && LabelSaverCalls(files, a, b)[i] == SaverCall(NumCases, Some((d, d + 1)))
  {
    if a < b {
      LabelSaverCallsShape(files, a, b - 1);
    }
  }

  /**
   * One more day of the label loop adds day d's saver call exactly when its file
   * is missing, and the days already loaded do not change that.
   */
  lemma LabelSaverCallsStep(files: set<FileId>, a: int, d: int)
    requires a <= d
    ensures LabelSaverCalls(files, a, d + 1) == LabelSaverCalls(files, a, d) +
              if DayFile(NumCases, d) in files + DaySet(NumCases, a, d) then [] else [SaverCall(NumCases, Some((d, d + 1)))]
  {
    assert DayFile(NumCases, d) !in DaySet(NumCases, a, d);
  }

  /**
   * One turn of the label loop keeps the loader facts: the files are the old
   * ones plus the days loaded so far, and the saver log grows by LabelSaverCalls.
   */
  lemma LabelLoaderStep(files0: set<FileId>, calls0: seq<SaverCall>, a: int, d: int,
                        files: set<FileId>, calls: seq<SaverCall>, files': set<FileId>, calls': seq<SaverCall>)
    requires a <= d
    requires files == files0 + DaySet(NumCases, a, d)
    requires calls == calls0 + LabelSaverCalls(files0, a, d)
    requires files' == files + {DayFile(NumCases, d)}
    requires calls' == calls + if DayFile(NumCases, d) in files then [] else [SaverCall(NumCases, Some((d, d + 1)))]
    ensures files' == files0 + DaySet(NumCases, a, d + 1)
    ensures calls' == calls0 + LabelSaverCalls(files0, a, d + 1)
  {
    DaySetStep(NumCases, a, d);
    LabelSaverCallsStep(files0, a, d);
  }

  function RowCounts(labels: seq<LabelEntry>): seq<nat>
  {
    seq(|labels|, k requires 0 <= k < |labels| => |labels[k].rows|)
  }

  /** The label entry of day d, from that day's num_cases frame. */
  function LabelEntryFor(frame: Frame, d: int): LabelEntry
  {
    LabelEntry(WindowStart(d), WindowEnd(d), DropNa(frame))
  }

  /** The labels the constructor builds: one entry per day of [start, end), in date order. */
  function LabelsFor(contents: FileId -> Frame, start: int, end: int): (labels: seq<LabelEntry>)
    ensures |labels| == if start < end then end - start else 0
  {
    seq(if start < end then end - start else 0,
        i => LabelEntryFor(contents(DayFile(NumCases, start + i)), start + i))
  }

  /**
   * Every label window is [d - 20, d - 7] for its day d, and lies inside the
   * feature range [start - 20, end - 7) the constructor loads.
   */
  lemma LabelWindowsInsideFeatureRange(contents: FileId -> Frame, start: int, end: int, i: nat)
    requires i < |LabelsFor(contents, start, end)|
    ensures var e := LabelsFor(contents, start, end)[i];
      && e.windowEnd == start + i - 7
      && e.windowStart == start + i - 20
      && TrainingDataStart(start) <= e.windowStart
      && e.windowEnd < TrainingDataEnd(end)
  {
    assert LabelsFor(contents, start, end)[i] == LabelEntryFor(contents(DayFile(NumCases, start + i)), start + i);
  }

  /** Adding day d to the label loop appends day d's entry. */
  lemma LabelsForStep(contents: FileId -> Frame, start: int, d: int)
    requires start <= d
    ensures LabelsFor(contents, start, d + 1)
            == LabelsFor(contents, start, d) + [LabelEntryFor(contents(DayFile(NumCases, d)), d)]
  {
    var a := LabelsFor(contents, start, d + 1);
    var b := LabelsFor(contents, start, d) + [LabelEntryFor(contents(DayFile(NumCases, d)), d)];
    assert |a| == |b|;
    forall i | 0 <= i < |a|
      ensures a[i] == b[i]
    {
    }
  }

  /** One turn of the label loop keeps both loop facts: labels per day so far, and their running totals. */
  lemma LabelLoopStep(contents: FileId -> Frame, start: int, d: int,
                      labels: seq<LabelEntry>, lens: seq<int>, rows: Frame)
    requires start <= d
    requires labels == LabelsFor(contents, start, d)
    requires Cumulative(lens, RowCounts(labels))
    requires rows == DropNa(contents(DayFile(NumCases, d)))
    ensures labels + [LabelEntry(d - ProjectionDays - PastDaysToConsider, d - ProjectionDays, rows)]
            == LabelsFor(contents, start, d + 1)
    ensures Cumulative(lens + [Total(lens) + |rows|],
                       RowCounts(labels + [LabelEntry(d - ProjectionDays - PastDaysToConsider, d - ProjectionDays, rows)]))
  {
    var e := LabelEntry(d - ProjectionDays - PastDaysToConsider, d - ProjectionDays, rows);
    LabelsForStep(contents, start, d);
    RowCountsAppend(labels, e);
    CumulativeAppend(lens, RowCounts(labels), |rows|);
  }

  /** The row counts of an extended label list extend the row counts. */
  lemma RowCountsAppend(labels: seq<LabelEntry>, e: LabelEntry)
    ensures RowCounts(labels + [e]) == RowCounts(labels) + [|e.rows|]
  {
  }

  /** The normalize arguments: one (None, None) per source by default, else the given list, which must fit. */
  function NormArgs(given: Option<seq<NormArg>>, n: nat): (r: Result<seq<NormArg>, DatasetError>)
    ensures r.Ok? <==> given.None? || |given.value| == n
    ensures r.Ok? ==> |r.value| == n
    ensures r.Ok? && given.Some? ==> r.value == given.value
    ensures r.Ok? && given.None? ==> forall i :: 0 <= i < n ==> r.value[i] == NormArg(None, None)
    ensures r.Err? ==> r.error == MeansStdsMismatch
  {
    match given
    case None => Ok(seq(n, _ => NormArg(None, None)))
    case Some(l) => if |l| == n then Ok(l) else Err(MeansStdsMismatch)
  }

  /**
   * The bundle of row `row` of one day's labels: the tensors of that row's
   * county over the day's window, and the class of the row's first cell.
   */
  function RowSample(entry: LabelEntry, row: nat, features: seq<Features>,
                     extract: (seq<Features>, string, int, int) -> Option<Tensors>,
                     boundaries: seq<int>): (r: Result<Bundle, DatasetError>)
    requires row < |entry.rows|
    ensures r.Ok? ==> && extract(features, entry.rows[row].fips, entry.windowStart, entry.windowEnd) == Some(r.value.tensors)
                      && |entry.rows[row].cells| > 0
                      && ClassifyLabel(boundaries, entry.rows[row].cells[0]) == Ok(r.value.labelClass)
    ensures r.Err? ==> r.error in {MissingCountyData, IndexError, InvalidLabel}
    ensures extract(features, entry.rows[row].fips, entry.windowStart, entry.windowEnd).None? ==> r == Err(MissingCountyData)
    ensures extract(features, entry.rows[row].fips, entry.windowStart, entry.windowEnd).Some? ==>
              && (|entry.rows[row].cells| == 0 ==> r == Err(IndexError))
              && (|entry.rows[row].cells| > 0 ==>
                    && (r.Ok? <==> ClassifyLabel(boundaries, entry.rows[row].cells[0]).Ok?)
                    && (ClassifyLabel(boundaries, entry.rows[row].cells[0]).Err? ==> r == Err(InvalidLabel)))
  {
    var rw := entry.rows[row];
    match extract(features, rw.fips, entry.windowStart, entry.windowEnd)
    case None => Err(MissingCountyData)
    case Some(out) =>
      if |rw.cells| == 0 then Err(IndexError)
      else
        match ClassifyLabel(boundaries, rw.cells[0])
        case Err(_) => Err(InvalidLabel)
        case Ok(c) => Ok(Bundle(out, c))
  }

  /** What __getitem__ computes for an id missing from the cache: resolve it to a (day, row), then build that row's bundle. */
  function ComputeSample(labels: seq<LabelEntry>, lens: seq<int>, features: seq<Features>,
                         extract: (seq<Features>, string, int, int) -> Option<Tensors>,
                         boundaries: seq<int>, idx: int): Result<Bundle, DatasetError>
  {
    match Locate(lens, RowCounts(labels), idx)
    case None => Err(IndexError)
    case Some((k, row)) => RowSample(labels[k], row, features, extract, boundaries)
  }

  /**
   * With no empty day, the flat id labels_lens[k-1] + row (0 for k = 0)
   * yields the bundle of row `row` of day k: every label row is reachable,
   * each through its own id.
   */
  lemma ComputeSampleReadsRow(labels: seq<LabelEntry>, lens: seq<int>, features: seq<Features>,
                              extract: (seq<Features>, string, int, int) -> Option<Tensors>,
                              boundaries: seq<int>, k: nat, row: nat)
    requires Cumulative(lens, RowCounts(labels)) && Positive(RowCounts(labels))
    requires k < |labels| && row < |labels[k].rows|
    ensures 0 <= Prev(lens, k) + row < Total(lens)
    ensures ComputeSample(labels, lens, features, extract, boundaries, Prev(lens, k) + row)
            == RowSample(labels[k], row, features, extract, boundaries)
  {
    LocateComplete(lens, RowCounts(labels), k, row);
  }

  /** Conversely, any id that does not fail with IndexError at resolution reads the row idx - labels_lens[k-1] of some day k. */
  lemma ComputeSampleFromRow(labels: seq<LabelEntry>, lens: seq<int>, features: seq<Features>,
                             extract: (seq<Features>, string, int, int) -> Option<Tensors>,
                             boundaries: seq<int>, idx: int)
    requires Cumulative(lens, RowCounts(labels))
    requires Locate(lens, RowCounts(labels), idx).Some?
    ensures exists k: nat, row: nat ::
      && k < |labels| && row < |labels[k].rows| && idx == Prev(lens, k) + row
      && ComputeSample(labels, lens, features, extract, boundaries, idx)
         == RowSample(labels[k], row, features, extract, boundaries)
  {
    LocateSound(lens, RowCounts(labels), idx);
    var (k, row) := Locate(lens, RowCounts(labels), idx).value;
    assert && k < |labels| && row < |labels[k].rows| && idx == Prev(lens, k) + row
           && ComputeSample(labels, lens, features, extract, boundaries, idx)
              == RowSample(labels[k], row, features, extract, boundaries);
  }

  /**
   * With no empty day, a sample lookup fails with IndexError exactly for ids
   * outside [0, labels_lens[-1]), given that every label row has a cell.
   */
  lemma ComputeSampleIndexError(labels: seq<LabelEntry>, lens: seq<int>, features: seq<Features>,
                                extract: (seq<Features>, string, int, int) -> Option<Tensors>,
                                boundaries: seq<int>, idx: int)
    requires Cumulative(lens, RowCounts(labels)) && Positive(RowCounts(labels))
    requires forall k, row :: 0 <= k < |labels| && 0 <= row < |labels[k].rows| ==> |labels[k].rows[row].cells| > 0
    ensures ComputeSample(labels, lens, features, extract, boundaries, idx) == Err(IndexError)
            <==> idx < 0 || Total(lens) <= idx
  {
    LocateDefinedIff(lens, RowCounts(labels), idx);
  }

  /** The normalize loop of __init__: each source normalized with its own (mean, std) argument, in order. */
  method NormalizeAll(normalize: (Features, NormArg) -> (Features, Stats), sources: seq<Features>, args: seq<NormArg>)
    returns (normalized: seq<Features>, stats: seq<Stats>)
    requires |args| == |sources|
    ensures |normalized| == |sources| && |stats| == |sources|
    ensures forall i :: 0 <= i < |sources| ==> (normalized[i], stats[i]) == normalize(sources[i], args[i])
  {
    normalized, stats := [], [];
    for i := 0 to |sources|
      invariant |normalized| == i && |stats| == i
      invariant forall j :: 0 <= j < i ==> (normalized[j], stats[j]) == normalize(sources[j], args[j])
    {
      var (f, st) := normalize(sources[i], args[i]);
      normalized := normalized + [f];
      stats := stats + [st];
    }
  }

  class CovidCountyDataset {
    const startDate: int
    const endDate: int
    const useCache: bool
    const meansStdsArg: Option<seq<NormArg>>
    const loader: DataLoader
    const ext: Externals
    const cfg: Config

    var isCached: bool
    var cache: map<int, Bundle>
    var labels: seq<LabelEntry>
    var labelsLens: seq<int>
    var features: seq<Features>
    var meansStds: seq<Stats>

    /**
     * labels_lens holds the running totals of the label rows per day, and a
     * dataset read from its cache file has no labels.
     */
    ghost predicate Valid()
      reads this`isCached, this`labels, this`labelsLens
    {
      && Cumulative(labelsLens, RowCounts(labels))
      && (isCached ==> labels == [])
    }

    /** The six feature sources __init__ loads over the training range, in order. */
    function Sources(): (fs: seq<Features>)
      ensures |fs| == NumSources
    {
      var s := TrainingDataStart(startDate);
      var e := TrainingDataEnd(endDate);
      [ ConstantFeatures(loader.contents(FixedFile(Census)), "open_census_data"),
        TimeDependentFeatures(loader.FramesOf(PatternsMonthly, SampledDays(s, e, 1)), "monthly_patterns", s, 1),
        TimeDependentFeatures(loader.FramesOf(SocialDistancing, SampledDays(s, e, 1)), "social_distancing", s, 1),
        TimeDependentFeatures(loader.FramesOf(NumCases, SampledDays(s, e, 1)), "num_cases", s, 1),
        ext.loadSgMobilityIncoming(s, e),
        CountyWiseTimeDependentFeatures(loader.FramesOf(CountywiseCumulativeCases, SampledDays(s, e, 1)),
                                        "countywise_cumulative_cases", s, 1) ]
    }

    /** The field assignments of __init__ before the cache is consulted. */
    constructor (startDate: int, endDate: int, meansStds: Option<seq<NormArg>>, useCache: bool,
                 loader: DataLoader, ext: Externals, cfg: Config)
      ensures this.startDate == startDate && this.endDate == endDate
      ensures this.meansStdsArg == meansStds && this.useCache == useCache
      ensures this.loader == loader && this.ext == ext && this.cfg == cfg
      ensures !isCached && cache == map[]
      ensures labels == [] && labelsLens == [] && features == [] && this.meansStds == []
      ensures Valid()
    {
      this.startDate := startDate;
      this.endDate := endDate;
      this.useCache := useCache;
      this.meansStdsArg := meansStds;
      this.loader := loader;
      this.ext := ext;
      this.cfg := cfg;
      isCached := false;
      cache := map[];
      labels := [];
      labelsLens := [];
      features := [];
      this.meansStds := [];
    }

    /** The sample __getitem__ builds for idx when it is not cached. */
    function Sample(idx: int): Result<Bundle, DatasetError>
      reads this`labels, this`labelsLens, this`features
    {
      ComputeSample(labels, labelsLens, features, ext.extract, cfg.labelsClassBoundaries, idx)
    }

    /** __len__: the cache's size once loaded, else labels_lens[-1] (None: IndexError on an empty list). */
    function Len(): (r: Option<int>)
      reads this`isCached, this`cache, this`labels, this`labelsLens
      ensures isCached ==> r == Some(|cache|)
      ensures !isCached && Valid() ==> (r.Some? <==> |labels| > 0)
    {
      if isCached then Some(|cache|)
      else if |labelsLens| == 0 then None
      else Some(labelsLens[|labelsLens| - 1])
    }

    /** Before the cache is loaded, the length is the number of label rows over all days. */
    lemma LenCountsRows()
      requires Valid() && !isCached && |labels| > 0
      ensures Len() == Some(Sum(RowCounts(labels)))
    {
      CumulativeTotal(labelsLens, RowCounts(labels));
    }

    /** A dataset read from its cache file has no labels, so every lookup it has to compute fails. */
    lemma CachedHasNoSamples()
      requires Valid() && isCached
      ensures forall j :: Sample(j) == Err(IndexError)
    {
    }

    /** _load_cache_from_disk */
    method LoadCacheFromDisk(disk: CacheFiles) returns (o: Outcome<DatasetError>)
      modifies this`cache, this`isCached
      ensures useCache && (startDate, endDate) in disk ==>
        o.Pass? && isCached && cache == disk[(startDate, endDate)]
      ensures useCache && (startDate, endDate) !in disk ==>
        o == Fail(MissingCacheFile) && isCached == old(isCached) && cache == old(cache)
      ensures !useCache ==> o.Pass? && isCached == old(isCached) && cache == old(cache)
    {
      if useCache {
        if (startDate, endDate) in disk {
          cache := disk[(startDate, endDate)];
          isCached := true;
        } else {
          return Fail(MissingCacheFile);
        }
      }
      return Pass;
    }

    /** One turn's read of the label loop: day d's num_cases table, without its NaN rows. */
    method LoadDayLabels(d: int) returns (rows: Frame)
      modifies loader
      ensures rows == DropNa(loader.contents(DayFile(NumCases, d)))
      ensures loader.onDisk == old(loader.onDisk) + {DayFile(NumCases, d)}
      ensures loader.saverCalls == old(loader.saverCalls) +
        if DayFile(NumCases, d) in old(loader.onDisk) then [] else [SaverCall(NumCases, Some((d, d + 1)))]
    {
      EnsureOneDay(loader.onDisk, NumCases, d);
      var f := loader.LoadNumCases(d, d + 1);
      assert f.frames[0] == loader.contents(DayFile(NumCases, d));
      rows := DropNa(f.frames[0]);
    }

    /** The six feature loads of __init__, in order, over the training range. */
    method LoadSources() returns (loaded: seq<Features>)
      modifies loader
      ensures loaded == Sources()
      ensures loader.onDisk == SourcesOnDisk(old(loader.onDisk), TrainingDataStart(startDate), TrainingDataEnd(endDate))
      ensures loader.saverCalls == old(loader.saverCalls) + SourcesCalls(old(loader.onDisk), TrainingDataStart(startDate), TrainingDataEnd(endDate))
    {
      var trainingDataEnd := TrainingDataEnd(endDate);
      var trainingDataStart := TrainingDataStart(startDate);
      ghost var files0, calls0 := loader.onDisk, loader.saverCalls;
      var census := loader.LoadCensusData();
      ghost var files1, calls1 := loader.onDisk, loader.saverCalls;
      var patterns := loader.LoadSgPatternsMonthly(trainingDataStart, trainingDataEnd);
      ghost var files2, calls2 := loader.onDisk, loader.saverCalls;
      var distancing := loader.LoadSgSocialDistancing(trainingDataStart, trainingDataEnd);
      ghost var files3, calls3 := loader.onDisk, loader.saverCalls;
      var numCases := loader.LoadNumCases(trainingDataStart, trainingDataEnd);
      ghost var files4, calls4 := loader.onDisk, loader.saverCalls;
      var mobility := ext.loadSgMobilityIncoming(trainingDataStart, trainingDataEnd);
      var cumulative := loader.LoadCountywiseCumulativeCases(trainingDataStart, trainingDataEnd);
      SourcesLoadsCompose(trainingDataStart, trainingDataEnd, files0, calls0, files1, calls1, files2, calls2,
                          files3, calls3, files4, calls4, loader.onDisk, loader.saverCalls);
      loaded := [census, patterns, distancing, numCases, mobility, cumulative];
    }

    /**
     * One turn of the label loop: day d's rows become an entry whose window is
     * the 13 days ending 7 days before d, and the running total grows by their count.
     */
    method AppendDay(d: int)
      modifies this`labels, this`labelsLens, loader
      ensures labels == old(labels) +
        [LabelEntry(d - ProjectionDays - PastDaysToConsider, d - ProjectionDays,
                    DropNa(loader.contents(DayFile(NumCases, d))))]
      ensures labelsLens == old(labelsLens) +
        [Total(old(labelsLens)) + |DropNa(loader.contents(DayFile(NumCases, d)))|]
      ensures loader.onDisk == old(loader.onDisk) + {DayFile(NumCases, d)}
      ensures loader.saverCalls == old(loader.saverCalls) +
        if DayFile(NumCases, d) in old(loader.onDisk) then [] else [SaverCall(NumCases, Some((d, d + 1)))]
    {
      var curLabels := LoadDayLabels(d);
      var curEnd := d - ProjectionDays;
      var curStart := curEnd - PastDaysToConsider;
      labels := labels + [LabelEntry(curStart, curEnd, curLabels)];
      if |labelsLens| > 0 {
        labelsLens := labelsLens + [labelsLens[|labelsLens| - 1] + |curLabels|];
      } else {
        labelsLens := labelsLens + [|curLabels|];
      }
    }

    /** The label loop of __init__: one entry and one running total per day. */
    method LoadLabels()
      modifies this`labels, this`labelsLens, loader
      ensures labels == LabelsFor(loader.contents, startDate, endDate)
      ensures labelsLens == PrefixSums(RowCounts(labels))
      ensures Cumulative(labelsLens, RowCounts(labels))
      ensures loader.onDisk == old(loader.onDisk) + DaySet(NumCases, startDate, endDate)
      ensures loader.saverCalls == old(loader.saverCalls) + LabelSaverCalls(old(loader.onDisk), startDate, endDate)
    {
      labelsLens := [];
      var d := startDate;
      labels := [];
      ghost var contents := loader.contents;
      ghost var files0, calls0 := loader.onDisk, loader.saverCalls;
      while d < endDate
        invariant startDate <= d <= if startDate < endDate then endDate else startDate
        invariant labels == LabelsFor(contents, startDate, d)
        invariant Cumulative(labelsLens, RowCounts(labels))
        invariant loader.onDisk == files0 + DaySet(NumCases, startDate, d)
        invariant loader.saverCalls == calls0 + LabelSaverCalls(files0, startDate, d)
      {
        ghost var labels', labelsLens', files, calls := labels, labelsLens, loader.onDisk, loader.saverCalls;
        AppendDay(d);
        LabelLoopStep(contents, startDate, d, labels', labelsLens', DropNa(contents(DayFile(NumCases, d))));
        LabelLoaderStep(files0, calls0, startDate, d, files, calls, loader.onDisk, loader.saverCalls);
        d := d + 1;
      }
      CumulativeIsPrefixSums(labelsLens, RowCounts(labels));
      if endDate <= startDate {
        assert DaySet(NumCases, startDate, endDate) == {};
      }
    }

    /**
     * The rest of __init__: consult the cache file; unless it was loaded, build
     * the labels, load the six feature sources over the training range,
     * normalize each with its (mean, std) argument and check the source count.
     */
    method Build(disk: CacheFiles) returns (o: Outcome<DatasetError>)
      requires !isCached && cache == map[] && labels == [] && labelsLens == []
      modifies this, loader
      ensures Valid()
      ensures useCache && (startDate, endDate) !in disk ==> o == Fail(MissingCacheFile)
      ensures useCache && (startDate, endDate) in disk ==>
        && o.Pass? && isCached && cache == disk[(startDate, endDate)]
        && labels == [] && Len() == Some(|cache|)
        && features == old(features)
        && loader.onDisk == old(loader.onDisk) && loader.saverCalls == old(loader.saverCalls)
      ensures !useCache ==>
        && !isCached && cache == map[]
        && loader.onDisk == SourcesOnDisk(old(loader.onDisk) + DaySet(NumCases, startDate, endDate),
                                          TrainingDataStart(startDate), TrainingDataEnd(endDate))
        && loader.saverCalls == old(loader.saverCalls) + LabelSaverCalls(old(loader.onDisk), startDate, endDate)
             + SourcesCalls(old(loader.onDisk) + DaySet(NumCases, startDate, endDate),
                            TrainingDataStart(startDate), TrainingDataEnd(endDate))
        && labels == LabelsFor(loader.contents, startDate, endDate)
        && labelsLens == PrefixSums(RowCounts(labels))
        && (o.Pass? <==> NormArgs(meansStdsArg, NumSources).Ok? && cfg.numFeatures == NumSources)
        && (o.Pass? ==> |features| == NumSources && |meansStds| == NumSources)
        && (o.Pass? ==> forall i :: 0 <= i < NumSources ==>
              (features[i], meansStds[i]) == ext.normalize(Sources()[i], NormArgs(meansStdsArg, NumSources).value[i]))
    {
      o := LoadCacheFromDisk(disk);
      if o.Fail? {
        return;
      }
      if isCached {
        return Pass;
      }
      LoadLabels();
      var loaded := LoadSources();
      var args := NormArgs(meansStdsArg, |loaded|);
      if args.Err? {
        return Fail(args.error);
      }
      var normalized, stats := NormalizeAll(ext.normalize, loaded, args.value);
      features := normalized;
      meansStds := stats;
      if |features| != cfg.numFeatures {
        return Fail(FeatureCountMismatch);
      }
      return Pass;
    }

    /** __getitem__: a cached bundle is returned as is; otherwise it is computed once and stored under idx. */
    method GetItem(idx: int) returns (r: Result<Bundle, DatasetError>)
      modifies this`cache
      ensures idx in old(cache) ==> r == Ok(old(cache)[idx]) && cache == old(cache)
      ensures idx !in old(cache) ==> r == Sample(idx)
      ensures idx !in old(cache) && r.Ok? ==> cache == old(cache)[idx := r.value]
      ensures idx !in old(cache) && r.Err? ==> cache == old(cache)
      ensures r.Ok? ==> idx in cache && cache[idx] == r.value
    {
      if idx in cache {
        return Ok(cache[idx]);
      }
      var loc := Locate(labelsLens, RowCounts(labels), idx);
      if loc.None? {
        return Err(IndexError);
      }
      var (k, row) := loc.value;
      var entry := labels[k];
      var extracted := ext.extract(features, entry.rows[row].fips, entry.windowStart, entry.windowEnd);
      if extracted.None? {
        return Err(MissingCountyData);
      }
      var out := extracted.value;
      var cells := entry.rows[row].cells;
      if |cells| == 0 {
        return Err(IndexError);
      }
      var c := ClassifyLabel(cfg.labelsClassBoundaries, cells[0]);
      if c.Err? {
        return Err(InvalidLabel);
      }
      r := Ok(Bundle(out, c.value));
      cache := cache[idx := r.value];
    }

    /** The fill loop of save_cache_on_disk: look up ids 0 .. n - 1 in order, stopping at the first error. */
    method FillCache(n: nat) returns (o: Outcome<DatasetError>)
      modifies this`cache
      ensures forall j :: j in old(cache) ==> j in cache && cache[j] == old(cache)[j]
      ensures forall j :: j in cache && j !in old(cache) ==> 0 <= j < n && Sample(j) == Ok(cache[j])
      ensures o.Pass? ==> forall j :: 0 <= j < n ==> j in cache
      ensures o.Fail? ==> exists j :: && 0 <= j < n && j !in old(cache) && Sample(j) == Err(o.error)
                                      && forall i :: 0 <= i < j ==> i in cache
    {
      for i := 0 to n
        invariant forall j :: 0 <= j < i ==> j in cache
        invariant forall j :: j in old(cache) ==> j in cache && cache[j] == old(cache)[j]
        invariant forall j :: j in cache && j !in old(cache) ==> 0 <= j < i && Sample(j) == Ok(cache[j])
      {
        var b := GetItem(i);
        if b.Err? {
          return Fail(b.error);
        }
      }
      return Pass;
    }

    /**
     * save_cache_on_disk: look up every id in [0, len) so that each is cached,
     * check that the cache holds exactly those ids, and write it as the cache
     * file of (start_date, end_date).
     */
    method SaveCacheOnDisk(disk: CacheFiles) returns (r: Result<CacheFiles, DatasetError>)
      requires Valid()
      modifies this`cache
      ensures forall j :: j in old(cache) ==> j in cache && cache[j] == old(cache)[j]
      ensures forall j :: j in cache && j !in old(cache) ==> Sample(j) == Ok(cache[j])
      ensures r.Ok? ==> old(Len()).Some? && old(Len()).value >= 0 && cache.Keys == RangeSet(old(Len()).value)
      ensures r.Ok? ==> r.value == disk[(startDate, endDate) := cache]
    {
      var len := Len();
      if len.None? {
        return Err(IndexError);
      }
      if !isCached {
        LenCountsRows();
      }
      var n := len.value;
      var filled := FillCache(n);
      if filled.Fail? {
        return Err(filled.error);
      }
      var after := Len();
      if after != Some(|cache|) {
        return Err(IncompleteCache);
      }
      if isCached {
        CachedHasNoSamples();
        assert forall j :: j in old(cache) ==> j in cache;
        assert forall j :: j in cache ==> j in old(cache);
        assert cache.Keys == old(cache).Keys;
      }
      RangeSetCovers(n, cache.Keys);
      return Ok(disk[(startDate, endDate) := cache]);
    }
  }

  /** The ids 0 .. n - 1. */
  function RangeSet(n: nat): (s: set<int>)
    ensures forall j :: j in s <==> 0 <= j < n
    ensures |s| == n
  {
    if n == 0 then {} else RangeSet(n - 1) + {n - 1}
  }

  /** A key set with n keys that contains every id 0 .. n - 1 is exactly those ids. */
  lemma RangeSetCovers(n: nat, keys: set<int>)
    requires RangeSet(n) <= keys && |keys| == n
    ensures keys == RangeSet(n)
  {
    var extra := keys - RangeSet(n);
    assert keys == RangeSet(n) + extra;
    assert |keys| == |RangeSet(n)| + |extra|;
  }
}

=== FILE: hyperparams.dfy ===
/**
 * The two fixed hyperparameters the sample windows are built from
 * (covid_county_prediction/config/model_hyperparam_config.py): a label on
 * day d is predicted from the days d - 20 .. d - 7.
 */
module Hyperparams {

  /** How far ahead of the last observed day the label lies. */
  const ProjectionDays: int := 7

  /** How many days before the window end the window starts. */
  const PastDaysToConsider: int := 13

  /** The end of the feature window for the label of day d. */
  function WindowEnd(d: int): (e: int)
    ensures e < d
  {
    d - ProjectionDays
  }

  /** The start of the feature window for the label of day d. */
  function WindowStart(d: int): int
  {
    WindowEnd(d) - PastDaysToConsider
  }
}

=== FILE: label_classifier.dfy ===
/**
 * CovidCountyDataset._classify_label: an integral, non-NaN label is mapped to
 * its class, the leftmost insertion point into the ascending class boundaries.
 */
module LabelClassifier {
  import opened Wrappers
  import opened Bisect
  import opened Tables

  /**
   * The label was rejected: a non-integral value fails the assertion
   * ceil(label) == floor(label), and NaN already fails inside ceil (ValueError)
   * before the assertion is reached. Both become this one error.
   */
  datatype LabelError = InvalidLabelValue

  /** ceil(x) == floor(x): the value has no fractional part. */
  predicate Integral(x: real)
  {
    x == x.Floor as real
  }

  function ClassifyLabel(boundaries: seq<int>, cell: Cell): (r: Result<nat, LabelError>)
    ensures r.Ok? <==> cell.Num? && Integral(cell.x)
    ensures r.Ok? ==> r.value <= |boundaries|
    ensures r.Ok? ==> forall j :: 0 <= j < r.value ==> boundaries[j] < cell.x.Floor
    ensures r.Ok? && r.value < |boundaries| ==> cell.x.Floor <= boundaries[r.value]
  {
    match cell
    case NaN => Err(InvalidLabelValue)
    case Num(x) =>
      if !Integral(x) then Err(InvalidLabelValue)
      else Ok(BisectLeft(boundaries, x.Floor))
  }

  /** On ascending boundaries the class is the number of boundaries strictly below the label. */
  lemma ClassifyCountsBelow(boundaries: seq<int>, n: int, j: nat)
    requires Ascending(boundaries)
    requires j < |boundaries|
    ensures ClassifyLabel(boundaries, Num(n as real)).Ok?
    ensures boundaries[j] < n <==> j < ClassifyLabel(boundaries, Num(n as real)).value
  {
    assert (n as real).Floor == n;
    BisectLeftSplits(boundaries, n);
  }

  /** The class never decreases as the label grows. */
  lemma ClassifyMonotone(boundaries: seq<int>, m: int, n: int)
    requires m <= n
    ensures ClassifyLabel(boundaries, Num(m as real)).Ok?
    ensures ClassifyLabel(boundaries, Num(n as real)).Ok?
    ensures ClassifyLabel(boundaries, Num(m as real)).value <= ClassifyLabel(boundaries, Num(n as real)).value
  {
    assert (m as real).Floor == m;
    assert (n as real).Floor == n;
    BisectLeftMonotone(boundaries, m, n);
  }

  /**
   * With boundaries [0, 5, 20]: -1 -> 0, 0 -> 0 (a label equal to a boundary
   * goes below it), 20 -> 2, 21 -> 3; 2.5 and NaN are refused.
   */
  lemma ClassifyExamples()
    ensures ClassifyLabel([0, 5, 20], Num(-1.0)) == Ok(0)
    ensures ClassifyLabel([0, 5, 20], Num(0.0)) == Ok(0)
    ensures ClassifyLabel([0, 5, 20], Num(20.0)) == Ok(2)
    ensures ClassifyLabel([0, 5, 20], Num(21.0)) == Ok(3)
    ensures ClassifyLabel([0, 5, 20], Num(2.5)) == Err(InvalidLabelValue)
    ensures ClassifyLabel([0, 5, 20], NaN) == Err(InvalidLabelValue)
  {
    assert (-1.0).Floor == -1;
    assert (0.0).Floor == 0;
    assert (20.0).Floor == 20;
    assert (21.0).Floor == 21;
    assert (2.5).Floor == 2;
    assert [0, 5, 20][1..] == [5, 20];
    assert [5, 20][1..] == [20];
  }
}

=== FILE: ordinal_runner.dfy ===
/**
 * get_ordinal_labels of OrdinalCovidRunner: class l becomes a thermometer row
 * of num_classifiers entries whose first l entries are 1 and the rest 0. The
 * float tensor's 0.0 / 1.0 entries are kept here as the integers 0 / 1.
 */
module OrdinalRunner {

  /** Where Python's slice [:l] stops on a row of n entries (negative l counts from the end). */
  function SliceStop(l: int, n: nat): (stop: nat)
    ensures stop <= n
  {
    if l >= 0 then (if l < n then l else n)
    else if n + l > 0 then n + l else 0
  }

  /** The row ans[i] holds after ans[i][:l] = 1 on a row of zeros. */
  function OrdinalRow(l: int, n: nat): (row: seq<int>)
  {
    seq(n, j => if j < SliceStop(l, n) then 1 else 0)
  }

  /** Counting the ones of a row: the decoding partner of OrdinalRow. */
  function CountOnes(row: seq<int>): (c: nat)
    ensures c <= |row|
  {
    if |row| == 0 then 0
    else CountOnes(row[..|row| - 1]) + (if row[|row| - 1] == 1 then 1 else 0)
  }

  method GetOrdinalLabels(labels: seq<int>, numClassifiers: nat) returns (ans: array2<int>)
    ensures fresh(ans)
    ensures ans.Length0 == |labels| && ans.Length1 == numClassifiers
    ensures forall i, j :: 0 <= i < ans.Length0 && 0 <= j < ans.Length1 ==>
              ans[i, j] == OrdinalRow(labels[i], numClassifiers)[j]
  {
    ans := new int[|labels|, numClassifiers]((i, j) => 0);
    for i := 0 to |labels|
      invariant forall i', j :: 0 <= i' < i && 0 <= j < numClassifiers ==>
                  ans[i', j] == OrdinalRow(labels[i'], numClassifiers)[j]
      invariant forall i', j :: i <= i' < |labels| && 0 <= j < numClassifiers ==> ans[i', j] == 0
    {
      var stop := SliceStop(labels[i], numClassifiers);
      forall j | 0 <= j < stop {
        ans[i, j] := 1;
      }
    }
  }

  /** For a class l >= 0, entry j is 1 exactly when j < l. */
  lemma OrdinalRowThermometer(l: int, n: nat, j: nat)
    requires 0 <= l && j < n
    ensures OrdinalRow(l, n)[j] == if j < l then 1 else 0
  {
  }

  /** The ones of the first m entries of a thermometer row. */
  lemma {:induction false} CountOnesPrefix(n: nat, m: nat)
    requires m <= n
    ensures CountOnes(seq(n, j => if j < m then 1 else 0)) == m
  {
    if n > 0 {
      var row := seq(n, j => if j < m then 1 else 0);
      if m == n {
        assert row[..n - 1] == seq(n - 1, j => if j < n - 1 then 1 else 0);
        CountOnesPrefix(n - 1, n - 1);
      } else {
        assert row[..n - 1] == seq(n - 1, j => if j < m then 1 else 0);
        CountOnesPrefix(n - 1, m);
      }
    }
  }

  /** Because the slice clamps, a row has min(l, n) ones (and n + l ones, at least 0, for a negative l). */
  lemma CountOnesOrdinalRow(l: int, n: nat)
    ensures CountOnes(OrdinalRow(l, n)) == SliceStop(l, n)
  {
    CountOnesPrefix(n, SliceStop(l, n));
  }

  /** Round trip: counting the ones of the row recovers every class 0 <= l <= n. */
  lemma OrdinalRoundTrip(l: int, n: nat)
    requires 0 <= l <= n
    ensures CountOnes(OrdinalRow(l, n)) == l
  {
    CountOnesOrdinalRow(l, n);
  }

  /** A larger class never has fewer ones at any position. */
  lemma OrdinalRowMonotone(l1: int, l2: int, n: nat, j: nat)
    requires 0 <= l1 <= l2 && j < n
    ensures OrdinalRow(l1, n)[j] <= OrdinalRow(l2, n)[j]
  {
  }

  /** Every row is ones followed by zeros. */
  lemma OrdinalRowNonIncreasing(l: int, n: nat, i: nat, j: nat)
    requires i <= j < n
    ensures OrdinalRow(l, n)[i] >= OrdinalRow(l, n)[j]
  {
  }
}

=== FILE: sample_index.dfy ===
/**
 * The prefix-sum sample index of CovidCountyDataset: day k holds sizes[k]
 * label rows, labels_lens[k] is the number of rows of days 0..k, and a flat
 * sample id is turned back into (day, row) with bisect_left, a "+1" step on
 * an exact boundary hit and a negative row offset that pandas reads from the
 * end of the day's frame.
 */
module SampleIndex {
  import opened Wrappers
  import opened Bisect

  function Sum(s: seq<nat>): nat
  {
    if |s| == 0 then 0 else Sum(s[..|s| - 1]) + s[|s| - 1]
  }

  /** labels_lens as the constructor builds it: one running total per day. */
  function PrefixSums(s: seq<nat>): (p: seq<int>)
    ensures |p| == |s|
  {
    if |s| == 0 then [] else PrefixSums(s[..|s| - 1]) + [Sum(s)]
  }

  /** Rows before day k: 0 for the first day, otherwise the previous running total. */
  function Prev(lens: seq<int>, k: nat): int
    requires k <= |lens|
  {
    if k == 0 then 0 else lens[k - 1]
  }

  /** The number of samples, labels_lens[-1]; 0 when there is no day. */
  function Total(lens: seq<int>): int
  {
    if |lens| == 0 then 0 else lens[|lens| - 1]
  }

  /** No day is empty. */
  predicate Positive(sizes: seq<nat>)
  {
    0 !in sizes
  }

  /** Each running total adds that day's rows to the ones before it. */
  lemma {:induction false} PrefixSumsStep(s: seq<nat>, k: nat)
    requires k < |s|
    ensures PrefixSums(s)[k] == Prev(PrefixSums(s), k) + s[k]
  {
    var n := |s| - 1;
    if k < n {
      PrefixSumsStep(s[..n], k);
      assert s[..n][k] == s[k];
    } else if n > 0 {
      assert s[..n][n - 1] == s[n - 1];
      PrefixSumsStep(s[..n], n - 1);
    }
  }

  /**
   * lens holds the running totals of sizes: each entry adds that day's rows
   * to the entry before it. PrefixSums(sizes) is the one such sequence.
   */
  predicate Cumulative(lens: seq<int>, sizes: seq<nat>)
  {
    && |lens| == |sizes|
    && forall k {:trigger sizes[k]} :: 0 <= k < |sizes| ==> lens[k] == Prev(lens, k) + sizes[k]
  }

  lemma PrefixSumsCumulative(s: seq<nat>)
    ensures Cumulative(PrefixSums(s), s)
  {
    forall k | 0 <= k < |s|
      ensures PrefixSums(s)[k] == Prev(PrefixSums(s), k) + s[k]
    {
      PrefixSumsStep(s, k);
    }
  }

  /** Two lists with the same step relation over the same counts agree at every day. */
  lemma {:induction false} CumulativeAgree(a: seq<int>, b: seq<int>, sizes: seq<nat>, k: nat)
    requires Cumulative(a, sizes) && Cumulative(b, sizes)
    requires k < |sizes|
    ensures a[k] == b[k]
    decreases k
  {
    assert a[k] == Prev(a, k) + sizes[k];
    assert b[k] == Prev(b, k) + sizes[k];
    if k > 0 {
      CumulativeAgree(a, b, sizes, k - 1);
    }
  }

  /** The step relation determines the running totals: they are the prefix sums. */
  lemma CumulativeIsPrefixSums(lens: seq<int>, sizes: seq<nat>)
    requires Cumulative(lens, sizes)
    ensures lens == PrefixSums(sizes)
  {
    PrefixSumsCumulative(sizes);
    forall k | 0 <= k < |lens|
      ensures lens[k] == PrefixSums(sizes)[k]
    {
      CumulativeAgree(lens, PrefixSums(sizes), sizes, k);
    }
  }

  /** Appending a day with x rows appends the last total plus x. */
  lemma CumulativeAppend(lens: seq<int>, sizes: seq<nat>, x: nat)
    requires Cumulative(lens, sizes)
    ensures Cumulative(lens + [Total(lens) + x], sizes + [x])
  {
    var lens', sizes' := lens + [Total(lens) + x], sizes + [x];
    forall k | 0 <= k < |sizes'|
      ensures lens'[k] == Prev(lens', k) + sizes'[k]
    {
      if k < |sizes| {
        assert sizes'[k] == sizes[k];
        assert lens[k] == Prev(lens, k) + sizes[k];
      }
    }
  }

  /** labels_lens never decreases. */
  lemma {:induction false} CumulativeMonotone(lens: seq<int>, sizes: seq<nat>, i: nat, j: nat)
    requires Cumulative(lens, sizes)
    requires i <= j < |lens|
    ensures lens[i] <= lens[j]
    decreases j - i
  {
    if i < j {
      CumulativeMonotone(lens, sizes, i, j - 1);
      assert lens[j] == lens[j - 1] + sizes[j];
    }
  }

  /** labels_lens strictly increases when no day is empty. */
  lemma {:induction false} CumulativeStrict(lens: seq<int>, sizes: seq<nat>, i: nat, j: nat)
    requires Cumulative(lens, sizes) && Positive(sizes)
    requires i < j < |lens|
    ensures lens[i] < lens[j]
    decreases j - i
  {
    assert lens[j] == lens[j - 1] + sizes[j];
    assert sizes[j] in sizes;
    if i < j - 1 {
      CumulativeStrict(lens, sizes, i, j - 1);
    }
  }

  /** The last running total is the number of rows of all days. */
  lemma {:induction false} CumulativeTotal(lens: seq<int>, sizes: seq<nat>)
    requires Cumulative(lens, sizes)
    ensures Total(lens) == Sum(sizes)
    decreases |sizes|
  {
    var n := |sizes|;
    if n > 0 {
      var lens', sizes' := lens[..n - 1], sizes[..n - 1];
      forall k | 0 <= k < |sizes'|
        ensures lens'[k] == Prev(lens', k) + sizes'[k]
      {
        assert sizes'[k] == sizes[k];
        assert lens[k] == Prev(lens, k) + sizes[k];
      }
      CumulativeTotal(lens', sizes');
      assert lens[n - 1] == Prev(lens, n - 1) + sizes[n - 1];
    }
  }

  /** Day k's rows [Prev(k), Prev(k) + sizes[k]) lie inside [0, labels_lens[-1]). */
  lemma CumulativeBounds(lens: seq<int>, sizes: seq<nat>, k: nat)
    requires Cumulative(lens, sizes)
    requires k < |lens|
    ensures 0 <= Prev(lens, k)
    ensures Prev(lens, k) + sizes[k] <= Total(lens)
  {
    assert lens[k] == Prev(lens, k) + sizes[k];
    CumulativeMonotone(lens, sizes, k, |lens| - 1);
    if k > 0 {
      CumulativeMonotone(lens, sizes, 0, k - 1);
      assert lens[0] == sizes[0];
    }
  }

  /** The day and the (possibly negative) row offset __getitem__ computes. */
  datatype Loc = Loc(day: nat, offset: int)

  /**
   * CovidCountyDataset.__getitem__ lines 136-140. None stands for the
   * IndexError raised when labels_lens is indexed past its end.
   */
  function Resolve(lens: seq<int>, idx: int): (r: Option<Loc>)
    ensures r.Some? ==> r.value.day < |lens|
    ensures r.None? ==> |lens| == 0 || lens[|lens| - 1] <= idx
  {
    var k := BisectLeft(lens, idx);
    if k >= |lens| then None
    else
      var k' := if lens[k] == idx then k + 1 else k;
      if k' >= |lens| then None else Some(Loc(k', idx - lens[k']))
  }

  /** .iloc[i] / .values[i] on n rows: negative i counts from the end; None is IndexError. */
  function PyIndex(n: nat, i: int): (r: Option<nat>)
    ensures r.Some? <==> -(n as int) <= i < n
    ensures r.Some? ==> r.value < n && (r.value == i || r.value == n + i)
  {
    if -(n as int) <= i < 0 then Some(n + i)
    else if 0 <= i < n then Some(i)
    else None
  }

  /** The (day, row) that flat sample id idx reads, or None where the source raises IndexError. */
  function Locate(lens: seq<int>, sizes: seq<nat>, idx: int): (r: Option<(nat, nat)>)
    ensures r.Some? ==> r.value.0 < |sizes| && r.value.1 < sizes[r.value.0]
  {
    match Resolve(lens, idx)
    case None => None
    case Some(loc) =>
      if loc.day >= |sizes| then None
      else
        match PyIndex(sizes[loc.day], loc.offset)
        case None => None
        case Some(row) => Some((loc.day, row))
  }

  /**
   * With no empty day, an id inside [0, labels_lens[-1]) resolves to the day k
   * whose range [Prev(k), labels_lens[k]) holds it, and the offset is negative:
   * it lies in [-(rows of day k), -1]. The location is returned for callers.
   */
  lemma ResolvedLoc(lens: seq<int>, sizes: seq<nat>, idx: int) returns (loc: Loc)
    requires Cumulative(lens, sizes) && Positive(sizes)
    requires 0 <= idx < Total(lens)
    ensures Resolve(lens, idx) == Some(loc)
    ensures loc.day < |sizes|
    ensures Prev(lens, loc.day) <= idx < lens[loc.day]
    ensures loc.offset == idx - lens[loc.day]
    ensures -(sizes[loc.day] as int) <= loc.offset <= -1
  {
    var k := BisectLeft(lens, idx);
    assert k < |lens|;
    if lens[k] == idx {
      assert k + 1 < |lens|;
      assert sizes[k + 1] in sizes;
      assert lens[k + 1] == lens[k] + sizes[k + 1];
      loc := Loc(k + 1, idx - lens[k + 1]);
    } else {
      assert lens[k] == Prev(lens, k) + sizes[k];
      loc := Loc(k, idx - lens[k]);
    }
  }

  /**
   * For any row counts, Resolve's offset is idx minus the chosen day's running
   * total, and it is negative unless the chosen day is empty (offset 0).
   */
  lemma ResolveSound(lens: seq<int>, sizes: seq<nat>, idx: int)
    requires Cumulative(lens, sizes)
    requires Resolve(lens, idx).Some?
    ensures var loc := Resolve(lens, idx).value;
      && loc.day < |sizes|
      && loc.offset == idx - lens[loc.day]
      && (loc.offset < 0 || (loc.offset == 0 && sizes[loc.day] == 0))
  {
    var k0 := BisectLeft(lens, idx);
    if lens[k0] == idx {
      assert lens[k0 + 1] == lens[k0] + sizes[k0 + 1];
    }
  }

  /**
   * Soundness, for any row counts (empty days allowed): whenever the source
   * does read a row, flat id idx reads row idx - Prev(k) of day k, inside that
   * day's frame.
   */
  lemma LocateSound(lens: seq<int>, sizes: seq<nat>, idx: int)
    requires Cumulative(lens, sizes)
    requires Locate(lens, sizes, idx).Some?
    ensures var (k, row) := Locate(lens, sizes, idx).value;
      && k < |sizes| && row < sizes[k]
      && idx == Prev(lens, k) + row
  {
    ResolveSound(lens, sizes, idx);
    var loc := Resolve(lens, idx).value;
    assert lens[loc.day] == Prev(lens, loc.day) + sizes[loc.day];
  }

  /** At most one day's range [Prev(k), labels_lens[k]) holds a given id. */
  lemma DayUnique(lens: seq<int>, sizes: seq<nat>, j: nat, k: nat, idx: int)
    requires Cumulative(lens, sizes)
    requires j < |lens| && k < |lens|
    requires Prev(lens, j) <= idx < lens[j]
    requires Prev(lens, k) <= idx < lens[k]
    ensures j == k
  {
    if j < k {
      CumulativeMonotone(lens, sizes, j, k - 1);
    } else if k < j {
      CumulativeMonotone(lens, sizes, k, j - 1);
    }
  }

  /** Distinct flat ids never address the same (day, row). */
  lemma LocateInjective(lens: seq<int>, sizes: seq<nat>, i: int, j: int)
    requires Cumulative(lens, sizes)
    requires Locate(lens, sizes, i).Some?
    requires Locate(lens, sizes, i) == Locate(lens, sizes, j)
    ensures i == j
  {
    LocateSound(lens, sizes, i);
    LocateSound(lens, sizes, j);
  }

  /** With no empty day, every row of every day is read by exactly the id Prev(k) + row. */
  lemma LocateComplete(lens: seq<int>, sizes: seq<nat>, k: nat, row: nat)
    requires Cumulative(lens, sizes) && Positive(sizes)
    requires k < |sizes| && row < sizes[k]
    ensures 0 <= Prev(lens, k) + row < Total(lens)
    ensures Locate(lens, sizes, Prev(lens, k) + row) == Some((k, row))
  {
    var idx := Prev(lens, k) + row;
    CumulativeBounds(lens, sizes, k);
    var loc := ResolvedLoc(lens, sizes, idx);
    DayUnique(lens, sizes, loc.day, k, idx);
    assert loc.offset == row - sizes[k];
  }

  /** With no empty day, an id is read iff it lies in [0, labels_lens[-1]). */
  lemma LocateDefinedIff(lens: seq<int>, sizes: seq<nat>, idx: int)
    requires Cumulative(lens, sizes) && Positive(sizes)
    ensures Locate(lens, sizes, idx).Some? <==> 0 <= idx < Total(lens)
  {
    if 0 <= idx < Total(lens) {
      var loc := ResolvedLoc(lens, sizes, idx);
      assert PyIndex(sizes[loc.day], loc.offset).Some?;
    } else if Locate(lens, sizes, idx).Some? {
      LocateSound(lens, sizes, idx);
      var (k, row) := Locate(lens, sizes, idx).value;
      CumulativeBounds(lens, sizes, k);
    }
  }

  /**
   * An empty day breaks resolution: with row counts [2, 0, 3], so
   * labels_lens = [2, 2, 5], the id 2 (the first row of the third day) lands
   * on the empty second day with offset 0 and the row lookup raises.
   */
  lemma EmptyDayRaises()
    ensures Cumulative([2, 2, 5], [2, 0, 3])
    ensures Resolve([2, 2, 5], 2) == Some(Loc(1, 0))
    ensures Locate([2, 2, 5], [2, 0, 3], 2) == None
  {
    assert BisectLeft([2, 2, 5], 2) == 0;
  }

  /**
   * An empty day k other than the first breaks resolution: the id equal to its
   * running total lands on the first empty day of that run with offset 0, and
   * the row lookup raises IndexError.
   */
  lemma EmptyDayFails(lens: seq<int>, sizes: seq<nat>, k: nat)
    requires Cumulative(lens, sizes)
    requires 1 <= k < |sizes| && sizes[k] == 0
    ensures Locate(lens, sizes, lens[k]) == None
  {
    var x := lens[k];
    assert lens[k] == lens[k - 1] + sizes[k];
    var j := BisectLeft(lens, x);
    assert j <= k - 1;
    CumulativeMonotone(lens, sizes, j, k - 1);
    assert lens[j] == x;
    CumulativeMonotone(lens, sizes, j + 1, k);
    assert lens[j + 1] == lens[j] + sizes[j + 1];
    assert Resolve(lens, x) == Some(Loc(j + 1, 0));
  }

  /** An empty first day is harmless: counts [0, 3] give labels_lens [0, 3], and id 0 reads row 0 of day 1. */
  lemma EmptyFirstDayExample()
    ensures Cumulative([0, 3], [0, 3])
    ensures Locate([0, 3], [0, 3], 0) == Some((1, 0))
  {
    assert BisectLeft([0, 3], 0) == 0;
  }

  /** labels_lens = [2, 5] for days with 2 and 3 rows; the boundary ids land on first and last rows. */
  lemma TwoDayExample()
    ensures Cumulative([2, 5], [2, 3])
    ensures Locate([2, 5], [2, 3], 0) == Some((0, 0))
    ensures Locate([2, 5], [2, 3], 1) == Some((0, 1))
    ensures Locate([2, 5], [2, 3], 2) == Some((1, 0))
    ensures Locate([2, 5], [2, 3], 4) == Some((1, 2))
    ensures Locate([2, 5], [2, 3], 5) == None
  {
    assert [2, 5][1..] == [5];
  }
}

=== FILE: tables.dfy ===
/**
 * Per-day tables keyed by county. Only what the core touches is kept: the
 * county identifier (the frame's index) and the numeric cells of the row.
 */
module Tables {

  /** A float cell as read from a csv: a finite value or NaN. */
  datatype Cell = Num(x: real) | NaN

  datatype Row = Row(fips: string, cells: seq<Cell>)

  type Frame = seq<Row>

  predicate HasNaN(r: Row)
  {
    exists i :: 0 <= i < |r.cells| && r.cells[i] == NaN
  }

  /** pandas' dropna(): keeps, in order, the rows without a NaN cell. */
  function DropNa(f: Frame): (g: Frame)
    ensures |g| <= |f|
    ensures forall i :: 0 <= i < |g| ==> !HasNaN(g[i])
    ensures forall r :: r in g <==> r in f && !HasNaN(r)
  {
    if |f| == 0 then []
    else if HasNaN(f[0]) then DropNa(f[1..])
    else [f[0]] + DropNa(f[1..])
  }
}

=== FILE: wrappers.dfy ===
/** Failure-carrying results used for the source's exceptions. */
module Wrappers {

  datatype Option<+T> = None | Some(value: T)

  datatype Result<+T, +E> = Ok(value: T) | Err(error: E)

  datatype Outcome<+E> = Pass | Fail(error: E)
}
